=== FILE: README.md ===
# Polynomial constant-term recovery: a Dafny model

The repository recovers the constant term c of a polynomial from a set of
encoded sample points. A test case lists indices 1, 2, ..., each carrying a
number written in some base. The index is x and the decoded number is y. The
repository implements this twice, with different strategies:

- **Java** (`PolynomialSolver.java`) reads indices 1..n. It decodes with
  `BigInteger` for ten whitelisted bases. With three or more points it solves
  the 3x3 system a*x^2 + b*x + c = y through the first three points by
  Cramer's rule, rounding detC / det HALF_UP. With fewer points, or when the
  determinant is zero, it falls back to the reduced model f(x) = x^2 + c.
  It prints warnings for points the result does not fit. It never uses k.
- **C++** (`test.cpp`) reads indices 1..20 whatever n says. Its decoder
  accepts any base. It evaluates the Lagrange interpolant through the first
  min(k, |roots|) points at x = 0 and rounds to the nearest integer.

The modules follow that structure:

- `Types`: points, errors, `Result`.
- `Digits`: digit characters and positional value. `Encode` is the inverse
  used for round trips.
- `CppDecoder` and `JavaDecoder`: the two `decodeFromBase`s.
- `Points`: the `readTestCase` loops, over a map from index to entry.
- `Polynomial`: integer polynomials and root counting.
- `Lagrange`: the interpolation sum and its exactness.
- `CppSolver` and `JavaSolver`: the two `solvePolynomial`s.
- `Pipeline`: the two `processTestCase`s, and where they agree or differ.

The central results:

- On unsigned ASCII digit strings, both decoders give the same value
  wherever Java accepts. Java inverts `Encode` for its ten bases, and C++
  for every base from 2 to 36. A leading sign is outside the model:
  `BigInteger` accepts one (PolynomialSolver.java:352-384), while the C++
  `charToDigit` rejects it (test.cpp:306).
- The C++ sum is exact. For distinct nodes on an integer polynomial with at
  most numPoints coefficients, it is that polynomial's constant term, and
  rounding changes nothing.
- The Java Cramer path is exact on an integer quadratic through three
  distinct points.
- So both programs report c for three or more points on an integer
  quadratic with k >= 3.
- On a single entry, with k >= 1, they always disagree. Its index x is at
  least 1, Java reports y - x^2 and C++ reports y. With k = 0 C++ uses no
  point and reports 0, which Java also reports when y = x^2.

## Model

| member | source | states |
|---|---|---|
| Digits.CharToDigit | test.cpp:298-307 | Decimal digits map to 0..9 and letters of either case to 10..35. Every other character has no digit value. |
| Digits.CaseInsensitive | test.cpp:301-304 | An upper-case letter reads as the same digit as its lower-case form. |
| Digits.CharToDigitInverse | test.cpp:298-307 | The only characters read as digit d are its canonical character and that character's upper-case form. |
| Digits.HornerAppend | test.cpp:313-323 | A digit string split in two is worth the left part times base^(length of the right part) plus the right part. |
| Digits.HornerBound | test.cpp:313-323 | A string of digits below the base has a value in [0, base^length). |
| CppDecoder.Decode | test.cpp:294-326 | Succeeds exactly when every character is a digit below the base, with the positional value. Otherwise it fails on the rightmost bad character, with an invalid-character or digit-out-of-range error. |
| CppDecoder.DecodeRejects | test.cpp:313-319 | A character that is rejected, with only valid digits to its right, is the error the decoder reports. |
| CppDecoder.RoundTrip | test.cpp:294-326 | For every base from 2 to 36, the decoder maps the canonical spelling of any natural number back to that number. |
| CppDecoder.DecodeFromBase | test.cpp:309-325 | The right-to-left loop with a running multiplier succeeds exactly when every character is valid, yields the positional value, and otherwise reports the same error. |
| JavaDecoder.Decode | PolynomialSolver.java:346-387 | A base outside {2,3,4,6,7,8,10,12,15,16} is an unsupported-base error. Otherwise an empty string or a non-digit is a number-format error. Any other string yields its positional value, most significant digit first, which lies in [0, base^length). |
| JavaDecoder.AgreesWithCpp | PolynomialSolver.java:352-384 | Wherever Java accepts, C++ accepts with the same value. With a whitelisted base they accept the same non-empty strings. The empty string is 0 in C++ and an error in Java. |
| JavaDecoder.RoundTrip | PolynomialSolver.java:352-384 | For every whitelisted base, both decoders map the canonical spelling of any natural number back to that number. |
| JavaDecoder.DocumentedExamples | PolynomialSolver.java:338-340 | "111" in base 2 is 7, "213" in base 4 is 39 and "a1b2" in base 16 is 41394. |
| Points.Scan | PolynomialSolver.java:155-171 | A read over an index range fails exactly when some present entry in range fails to decode. The error is then that of the lowest failing index, since the loop stops at the first throw. |
| Points.ScanPoints | test.cpp:198-222 | A successful read holds exactly the present indices of the range, in strictly increasing order. Each is paired with its decoded value. |
| Points.JavaPointsInRange | PolynomialSolver.java:155-171 | Java's points have strictly increasing x in [1, n], and there are at most n of them. |
| Points.CppPointsInRange | test.cpp:198-222 | C++'s points have strictly increasing x in [1, 20], and there are at most 20 of them. |
| Points.CppSeesPastN | test.cpp:195-198 | A present index above n but within 20 becomes a C++ point and never a Java point. |
| Points.ReadsAgree | test.cpp:198-222 | If every present index lies in 1..min(n, 20) and decodes in Java, the Java and C++ reads build the same point list. |
| Polynomial.EvalQuot | test.cpp:256-284 | Synthetic division: p(t) = (t - a) * q(t) + p(a). |
| Polynomial.VanishingIsZero | test.cpp:256-284 | A polynomial with at most n coefficients that is zero at n distinct points is zero everywhere. |
| Lagrange.BasisAsQuotient | test.cpp:266-273 | The product of (-xj)/(xi - xj) over j != i equals N_i(0)/N_i(xi), a quotient of two integers with a non-zero denominator. |
| Lagrange.SumAsQuotient | test.cpp:261-277 | The running sum of yi times its basis factor is an integer over the common denominator of all the basis factors. |
| Lagrange.InterpolationExact | test.cpp:256-284 | With distinct nodes and values on an integer polynomial f with no more coefficients than nodes, the exact interpolation sum equals f(0). |
| CppSolver.RoundHalfAway | test.cpp:283 | The result is within 1/2 of the input. A halfway case rounds away from zero. |
| CppSolver.RoundIntegral | test.cpp:283 | Rounding leaves an integer unchanged. |
| CppSolver.NumPoints | test.cpp:247 | The number of points used is the smaller of k and the number of roots. |
| CppSolver.LagrangeInterpolationAtZero | test.cpp:256-284 | Fails, as a division by zero, exactly when two of the used points share an x. |
| CppSolver.SolvePolynomial | test.cpp:236-250 | An empty point list is a no-roots error. Otherwise the result is a value exactly when the used points (the first min(k, number of roots)) have distinct x, and the only other failure is a duplicate x. |
| CppSolver.OnlyLeadingPointsMatter | test.cpp:261-270 | Two lists that agree on their first numPoints points give the same result. |
| CppSolver.SolveUsesFirstK | test.cpp:247-249 | With k between 1 and the number of roots, lists that agree on their first k points give the same result. |
| CppSolver.NonPositiveK | test.cpp:247-283 | With k <= 0 no point is used and the result is 0. |
| CppSolver.OnePoint | test.cpp:261-277 | With a single used point the result is that point's y. |
| CppSolver.SolveExact | test.cpp:236-284 | If the used points have distinct x and lie on an integer polynomial of at most numPoints coefficients, the result is its constant term. |
| JavaSolver.Det | PolynomialSolver.java:245-250 | The six-term determinant is the Vandermonde product (x1-x2)(x1-x3)(x2-x3). It is zero exactly when two of the x coincide. |
| JavaSolver.CramerConstant | PolynomialSolver.java:259-264 | On a quadratic a*x^2 + b*x + c through the three points, detC equals c times det. |
| JavaSolver.DivHalfUp | PolynomialSolver.java:267 | The quotient is an integer within half a unit of detC/det. A tie goes away from zero. |
| JavaSolver.DivHalfUpExact | PolynomialSolver.java:267 | An exact quotient is returned unchanged. |
| JavaSolver.Mismatches | PolynomialSolver.java:297-303 | The warnings name exactly the checked roots that do not satisfy x^2 + c = y, and there are exactly as many warnings as such roots. |
| JavaSolver.SolveSimple | PolynomialSolver.java:284-306 | c makes the reduced model pass through the first root. The warnings name exactly the later roots off that model. |
| JavaSolver.VerifySolution | PolynomialSolver.java:317-332 | The difference warnings name exactly the roots whose deviation from x^2 + c exceeds 1, each with that deviation, and there are exactly as many warnings as such roots. |
| JavaSolver.SolveSystem | PolynomialSolver.java:221-273 | With a non-zero determinant c is within half a unit of detC/det, and an exact tie goes away from zero. With a zero determinant the reduced model passes through the first root. |
| JavaSolver.SolvePolynomial | PolynomialSolver.java:188-205 | Fails exactly when there are no roots, with a no-roots error. With one or two roots the reduced model passes through the first. With three or more and a non-zero determinant, c is within half a unit of detC/det, and an exact tie goes away from zero. With three or more and a zero determinant, the reduced model passes through the first root. |
| JavaSolver.SystemUsesFirstThree | PolynomialSolver.java:227-272 | The Cramer constant depends only on the first three roots, so the verification over all roots never changes it. |
| JavaSolver.SimpleUsesFirst | PolynomialSolver.java:286-305 | The reduced-model constant depends only on the first root, so the check loop over later roots never changes it. |
| JavaSolver.FallbackIffCoincide | PolynomialSolver.java:252-255 | The zero-determinant fallback happens exactly when two of the first three x coincide. |
| JavaSolver.SystemExactOnQuadratic | PolynomialSolver.java:221-273 | Three distinct points on an integer quadratic give exactly its constant term. |
| JavaSolver.SolveExactOnQuadratic | PolynomialSolver.java:188-205 | The solver succeeds with that constant term for such input. |
| Pipeline.JavaProcessTestCase | PolynomialSolver.java:95-99 | A read error propagates, an empty read is a no-roots error, and otherwise the record carries n, k and the points read. |
| Pipeline.CppProcessTestCase | test.cpp:131-135 | A read error propagates, an empty read is a no-roots error, and any non-empty read succeeds: the interpolation never fails on the points read. A success carries n, k and the points read, and its constant is what the solver returns for them. |
| Pipeline.IncreasingSolves | test.cpp:236-284 | On points with strictly increasing x the solver fails only for an empty list, whatever k is, since the points it uses have distinct x. |
| Pipeline.JavaIgnoresK | PolynomialSolver.java:188-205 | Changing k changes neither whether Java succeeds nor the constant it reports. |
| Pipeline.SolversAgreeOnQuadratic | test.cpp:236-284 | For three or more points with increasing x on an integer quadratic and k >= 3, both solvers return its constant term. |
| Pipeline.CramerMatchesLagrange | PolynomialSolver.java:245-272 | Three leading points with distinct x on an integer quadratic: Cramer's rule and Lagrange interpolation over the same three points both give its constant term. |
| Pipeline.SolversDisagreeOnOnePoint | PolynomialSolver.java:284-294 | For one point and k >= 1, Java returns y - x^2 without warnings and C++ returns y. They agree exactly when x = 0. |
| Pipeline.AgreeOnQuadratic | PolynomialSolver.java:95-99 | Entries within 1..min(n, 20) that decode to an integer quadratic, at least three of them, with k >= 3: both programs report its constant term. |
| Pipeline.ReadsSingle | test.cpp:198-222 | With one present entry the two reads give the same single point. |
| Pipeline.DisagreeOnOneEntry | test.cpp:131-135 | With one present entry at index i decoding to y, and k >= 1, Java reports y - i^2 and C++ reports y. These always differ. |

## Left out

- JSON parsing, `main`, `runTests` and `TestRunner` are not modelled. A test case is given as n, k and a map from index to (base, digit string).
- `Points.CppReadPoints`: both programs read from the same map from index to entry, which holds inputs the C++ parser never produces. That parser removes all whitespace from the file, including inside values (test.cpp:41). It keeps only entries whose base is all decimal digits and whose value is non-empty (test.cpp:53), and drops the rest as if the index were absent. The model reads such an entry as given: an empty value decodes to 0 in C++.
- Console output is not modelled. Java's warnings become a returned list, `JavaSolver.Solution.warnings`. C++'s progress messages are dropped.
- `Integer.parseInt` and `std::stoi` of the base string are not modelled: the base is an `int`.
- Signs are not modelled. `BigInteger(value, radix)` is modelled on unsigned ASCII digit strings. A leading sign and non-ASCII digits are not modelled.
- `long long` overflow is not modelled. The C++ decoder, its result and the final cast of the rounded sum use unbounded integers.
- `long double` rounding is not modelled: the C++ sum is computed in exact rationals. Every exactness claim about C++ is about the exact sum.
- `CppSolver.LagrangeInterpolationAtZero`: where the source divides by zero because two used points share an x, the model returns a duplicate-x error instead of a non-finite value. That case never arises from the read loops: their points have strictly increasing x (`Points.ScanPoints`), so every non-empty read is solved (`Pipeline.IncreasingSolves`, `Pipeline.CppProcessTestCase`).
- BigDecimal scales are not modelled. The values in the Java solver are integers, so `BigDecimal` is plain integer arithmetic with a HALF_UP division to scale 0.
- `Pipeline.JavaProcessTestCase`: Java's printed warnings are not part of the returned record, as in the source.
- Neither program rejects a non-integer exact result. C++ rounds it with `std::round` (test.cpp:283), and Java divides HALF_UP to scale 0 (PolynomialSolver.java:267). The model follows the code.
- Neither program rejects exactly the bases outside [2, 36]. Java accepts only its ten whitelisted bases (PolynomialSolver.java:352-387). The C++ decoder does not check the base at all (test.cpp:294-326): a base above 36 accepts every digit character, and a base below 1 rejects every non-empty string. The model follows the code.
- Neither program reports the position of a bad digit. C++ reports the character, or the digit and the base (test.cpp:306, 316-317). Java reports only a number-format error for the string. The model follows the code.
- Neither program rejects k < 1 or fewer points than k. C++ uses min(k, number of roots) points (test.cpp:247), so k <= 0 yields 0 and a short list is used as it is. Java ignores k (PolynomialSolver.java:188-205). The model follows the code.

=== FILE: cpp_decoder.dfy ===
/** The C++ decoder (`decodeFromBase` in test.cpp): characters are read
    right to left, each is mapped by `charToDigit`, rejected when its digit
    is not below the base, and added in with a running power of the base.

    The base is taken as given: this decoder does not check it, so a base
    above 36 accepts every digit character and a base below 1 rejects every
    non-empty string. The `long long` accumulator is unbounded here. */
module CppDecoder {
  import opened Types
  import opened Digits

  /** The exception thrown for a character that is not a valid digit. */
  function CharError(c: char, base: int): Error
    requires !ValidFor(c, base)
  {
    match CharToDigit(c)
    case None => InvalidCharacter(c)
    case Some(d) => DigitOutOfRange(d, base)
  }

  /** The decoder's outcome. It succeeds exactly when every character is a
      digit below the base, and then yields the positional value of the
      string (most significant digit first), which lies in [0, base^|value|).
      Otherwise it fails on the RIGHTMOST offending character, because the
      scan runs right to left and stops at the first throw. */
  function Decode(value: string, base: int): (r: Result<int>)
    ensures r.Ok? <==> AllValid(value, base)
    ensures r.Ok? ==> r.value == Horner(DigitsOf(value), base)
    ensures r.Ok? ==> 0 <= r.value < Pow(base, |value|)
    ensures r.Err? ==> exists i :: 0 <= i < |value| && RejectedAt(value, base, i) && r.error == CharError(value[i], base)
    decreases |value|
  {
    if |value| == 0 then Ok(0)
    else
      var c := value[|value| - 1];
      var prefix := value[..|value| - 1];
      if !ValidFor(c, base) then
        LastRejected(value, base);
        Err(CharError(c, base))
      else
        match Decode(prefix, base)
        case Err(e) =>
          RejectionExtends(value, base, e);
          Err(e)
        case Ok(v) =>
          AppendValidDigit(value, base);
          Ok(v * base + DigitValue(c))
  }

  /** Position i is where the right-to-left scan throws: its character is
      not a valid digit, and every character to its right is. */
  predicate RejectedAt(s: string, base: int, i: int)
    requires 0 <= i < |s|
  {
    !ValidFor(s[i], base) && forall j :: i < j < |s| ==> ValidFor(s[j], base)
  }

  /** An invalid last character is where the scan throws, and the string
      as a whole is not valid. */
  lemma LastRejected(value: string, base: int)
    requires |value| > 0 && !ValidFor(value[|value| - 1], base)
    ensures RejectedAt(value, base, |value| - 1)
    ensures !AllValid(value, base)
  {
  }

  /** A rejection inside the prefix stays the rightmost one when a valid
      digit is appended, and the whole string is then not valid. */
  lemma RejectionExtends(value: string, base: int, e: Error)
    requires |value| > 0 && ValidFor(value[|value| - 1], base)
    requires exists i :: 0 <= i < |value| - 1 && RejectedAt(value[..|value| - 1], base, i) && e == CharError(value[i], base)
    ensures exists i :: 0 <= i < |value| && RejectedAt(value, base, i) && e == CharError(value[i], base)
    ensures !AllValid(value, base)
  {
    var prefix := value[..|value| - 1];
    var i :| 0 <= i < |prefix| && RejectedAt(prefix, base, i) && e == CharError(value[i], base);
    assert RejectedAt(value, base, i);
    assert !ValidFor(value[i], base);
  }

  /** Appending one valid digit d to a valid prefix multiplies its value by
      the base and adds d; the result stays below base^length. */
  lemma AppendValidDigit(value: string, base: int)
    requires |value| > 0 && ValidFor(value[|value| - 1], base) && AllValid(value[..|value| - 1], base)
    ensures AllValid(value, base)
    ensures Horner(DigitsOf(value), base)
         == Horner(DigitsOf(value[..|value| - 1]), base) * base + DigitValue(value[|value| - 1])
    ensures 0 <= Horner(DigitsOf(value), base) < Pow(base, |value|)
  {
    var n := |value| - 1;
    var prefix := value[..n];
    assert AllValid(value, base) by {
      forall i | 0 <= i < |value|
        ensures ValidFor(value[i], base)
      {
        if i < n {
          assert value[i] == prefix[i];
        }
      }
    }
    var ds := DigitsOf(value);
    assert ds == DigitsOf(prefix) + [DigitValue(value[n])];
    HornerSnoc(DigitsOf(prefix), DigitValue(value[n]), base);
    assert forall i :: 0 <= i < |ds| ==> ds[i] < base by {
      forall i | 0 <= i < |ds|
        ensures ds[i] < base
      {
        assert ValidFor(value[i], base);
      }
    }
    HornerBound(ds, base);
  }

  /** Once position i is where the scan throws, the whole decode fails
      with that character's error. */
  lemma {:induction false} DecodeRejects(value: string, base: int, i: int)
    requires 0 <= i < |value|
    requires RejectedAt(value, base, i)
    ensures Decode(value, base) == Err(CharError(value[i], base))
    decreases |value|
  {
    if i < |value| - 1 {
      var prefix := value[..|value| - 1];
      assert ValidFor(value[|value| - 1], base);
      assert RejectedAt(prefix, base, i);
      DecodeRejects(prefix, base, i);
    }
  }

  /** Prepending character i to the suffix after it adds its digit times
      base^(length of that suffix). */
  lemma PrependDigit(value: string, base: int, i: int, m: int)
    requires 0 <= i < |value|
    requires m == Pow(base, |value| - (i + 1))
    ensures Horner(DigitsOf(value[i..]), base) == DigitValue(value[i]) * m + Horner(DigitsOf(value[i + 1..]), base)
    ensures Pow(base, |value| - i) == m * base
  {
    var rest := DigitsOf(value[i + 1..]);
    var d := DigitValue(value[i]);
    assert Pow(base, |rest|) == m;
    assert Horner(DigitsOf(value[i..]), base) == d * Pow(base, |rest|) + Horner(rest, base) by {
      assert DigitsOf(value[i..]) == [d] + rest;
      HornerPrepend(d, rest, base);
    }
  }

  /** For every base from 2 to 36 the decoder maps the canonical spelling
      of any natural number back to that number. */
  lemma RoundTrip(v: nat, base: int)
    requires 2 <= base <= 36
    ensures Decode(Encode(v, base), base) == Ok(v)
  {
    var s := Encode(v, base);
    assert AllValid(s, base);
  }

  /** The loop of test.cpp: `result` accumulates digit * multiplier from the
      right, and `multiplier` is multiplied by the base after each digit. */
  method DecodeFromBase(value: string, base: int) returns (r: Result<int>)
    ensures r.Ok? <==> AllValid(value, base)
    ensures r.Ok? ==> r.value == Horner(DigitsOf(value), base)
    ensures r.Err? ==> r == Decode(value, base)
  {
    var result := 0;
    var multiplier := 1;
    var i := |value|;
    while i > 0
      invariant 0 <= i <= |value|
      invariant forall j :: i <= j < |value| ==> ValidFor(value[j], base)
      invariant result == Horner(DigitsOf(value[i..]), base)
      invariant multiplier == Pow(base, |value| - i)
    {
      i := i - 1;
      var c := value[i];
      var digit := CharToDigit(c);
      if digit.None? || digit.value >= base {
        assert RejectedAt(value, base, i);
        assert !AllValid(value, base) by {
          assert !ValidFor(value[i], base);
        }
        DecodeRejects(value, base, i);
        r := Err(CharError(c, base));
        return;
      }
      assert digit.value == DigitValue(c);
      PrependDigit(value, base, i, multiplier);
      result := result + digit.value * multiplier;
      multiplier := multiplier * base;
    }
    assert i == 0 && value[i..] == value;
    assert AllValid(value, base);
    r := Ok(result);
  }
}

=== FILE: cpp_solver.dfy ===
/** The C++ strategy (`solvePolynomial` and `lagrangeInterpolationAtZero`
    in test.cpp): interpolate through the first min(k, |roots|) points and
    round the value at zero to the nearest integer.

    The `long double` arithmetic is exact here. Where the source would
    divide by zero (two of the used points share an x) the model reports
    `DuplicateX` instead of a non-finite value. */
module CppSolver {
  import opened Types
  import opened Polynomial
  import opened Lagrange

  /** The x values of a point list. */
  function Xs(pts: seq<Point>): (xs: seq<int>)
    ensures |xs| == |pts| && forall i :: 0 <= i < |pts| ==> xs[i] == pts[i].x
  {
    seq(|pts|, i requires 0 <= i < |pts| => pts[i].x)
  }

  /** The y values of a point list. */
  function Ys(pts: seq<Point>): (ys: seq<int>)
    ensures |ys| == |pts| && forall i :: 0 <= i < |pts| ==> ys[i] == pts[i].y
  {
    seq(|pts|, i requires 0 <= i < |pts| => pts[i].y)
  }

  /** `std::round`: the nearest integer, halfway cases away from zero. */
  function RoundHalfAway(r: real): (n: int)
    ensures -0.5 <= r - n as real <= 0.5
    ensures r - n as real == 0.5 ==> r < 0.0
    ensures r - n as real == -0.5 ==> r > 0.0
  {
    if r >= 0.0 then (r + 0.5).Floor else -((-r + 0.5).Floor)
  }

  /** Rounding leaves an integer unchanged. */
  lemma RoundIntegral(v: int)
    ensures RoundHalfAway(v as real) == v
  {
  }

  /** The number of leading points used: min(k, |roots|). */
  function NumPoints(k: int, count: nat): (m: int)
    ensures m <= count && m <= k && (m == k || m == count)
  {
    if k < count then k else count
  }

  /** The points the loops of `lagrangeInterpolationAtZero` read: the first
      numPoints, or none when numPoints is not positive. */
  function UsedPoints(roots: seq<Point>, numPoints: int): (used: seq<Point>)
    requires numPoints <= |roots|
    ensures |used| == if numPoints <= 0 then 0 else numPoints
    ensures forall i :: 0 <= i < |used| ==> used[i] == roots[i]
  {
    if numPoints <= 0 then [] else roots[..numPoints]
  }

  /** `lagrangeInterpolationAtZero(roots, numPoints)`. */
  function LagrangeInterpolationAtZero(roots: seq<Point>, numPoints: int): (r: Result<int>)
    requires numPoints <= |roots|
    ensures r.Err? <==> !Distinct(Xs(UsedPoints(roots, numPoints)))
    ensures r.Err? ==> r.error == DuplicateX
  {
    var used := UsedPoints(roots, numPoints);
    if !Distinct(Xs(used)) then Err(DuplicateX)
    else Ok(RoundHalfAway(InterpolateAtZero(Xs(used), Ys(used))))
  }

  /** `solvePolynomial`: no roots is an error; otherwise interpolate over
      the first min(k, |roots|) of them, which fails only when two of those
      share an x. */
  function SolvePolynomial(roots: seq<Point>, k: int): (r: Result<int>)
    ensures |roots| == 0 ==> r == Err(NoRoots)
    ensures r.Ok? <==> |roots| > 0 && Distinct(Xs(UsedPoints(roots, NumPoints(k, |roots|))))
    ensures r.Err? ==> r.error == NoRoots || r.error == DuplicateX
  {
    if |roots| == 0 then Err(NoRoots)
    else LagrangeInterpolationAtZero(roots, NumPoints(k, |roots|))
  }

  /** Only roots[..numPoints] enter the result: lists that agree there give
      the same answer, whatever follows. */
  lemma OnlyLeadingPointsMatter(roots: seq<Point>, other: seq<Point>, numPoints: int)
    requires numPoints <= |roots| && numPoints <= |other|
    requires forall i :: 0 <= i < numPoints ==> roots[i] == other[i]
    ensures LagrangeInterpolationAtZero(roots, numPoints) == LagrangeInterpolationAtZero(other, numPoints)
  {
    assert UsedPoints(roots, numPoints) == UsedPoints(other, numPoints);
  }

  /** With k >= 1 the result depends only on the first k roots. */
  lemma SolveUsesFirstK(roots: seq<Point>, other: seq<Point>, k: int)
    requires 1 <= k <= |roots| && k <= |other|
    requires roots[..k] == other[..k]
    ensures SolvePolynomial(roots, k) == SolvePolynomial(other, k)
  {
    forall i | 0 <= i < k
      ensures roots[i] == other[i]
    {
      assert roots[..k][i] == other[..k][i];
    }
    OnlyLeadingPointsMatter(roots, other, k);
  }

  /** A non-positive k uses no points, and the empty sum rounds to 0. */
  lemma NonPositiveK(roots: seq<Point>, k: int)
    requires |roots| > 0 && k <= 0
    ensures SolvePolynomial(roots, k) == Ok(0)
  {
    var used := UsedPoints(roots, NumPoints(k, |roots|));
    assert used == [];
    assert Distinct(Xs(used));
  }

  /** With a single point the basis product is empty, so the result is that
      point's y. */
  lemma OnePoint(roots: seq<Point>, k: int)
    requires |roots| >= 1 && k >= 1 && NumPoints(k, |roots|) == 1
    ensures SolvePolynomial(roots, k) == Ok(roots[0].y)
  {
    var used := UsedPoints(roots, 1);
    var xs, ys := Xs(used), Ys(used);
    assert Distinct(xs);
    assert BasisAtZero(xs, 0, 1) == 1.0;
    assert SumTerms(xs, ys, 1) == SumTerms(xs, ys, 0) + ys[0] as real * BasisAtZero(xs, 0, 1);
    RoundIntegral(roots[0].y);
  }

  /** Exactness: if the first numPoints roots have distinct x and lie on an
      integer polynomial f with at most numPoints coefficients, the result
      is f's constant term, and the final rounding changes nothing. */
  lemma SolveExact(roots: seq<Point>, k: int, f: seq<int>)
    requires |roots| > 0
    requires Distinct(Xs(UsedPoints(roots, NumPoints(k, |roots|))))
    requires |f| <= NumPoints(k, |roots|)
    requires forall i :: 0 <= i < NumPoints(k, |roots|) ==> roots[i].y == Eval(f, roots[i].x)
    ensures SolvePolynomial(roots, k) == Ok(ConstantTerm(f))
  {
    var used := UsedPoints(roots, NumPoints(k, |roots|));
    InterpolationExact(Xs(used), Ys(used), f);
    RoundIntegral(ConstantTerm(f));
  }
}

=== FILE: digits.dfy ===
/** Digit characters and positional value, shared by both decoders.

    `Horner(ds, b)` is the reference meaning of a digit string: the most
    significant digit comes first and each step computes `running * b + d`.
    `ToDigits` and `Encode` are its inverse, used to state round trips. */
module Digits {
  import opened Types

  /** The digit a character stands for: '0'..'9' are 0..9, and 'a'..'z'
      and 'A'..'Z' are both 10..35; anything else is not a digit. */
  function CharToDigit(c: char): (r: Option<nat>)
    ensures r.Some? <==> IsDigitChar(c)
    ensures r.Some? ==> r.value < 36
    ensures '0' <= c <= '9' ==> r.Some? && r.value < 10
    ensures IsLetter(c) ==> r.Some? && 10 <= r.value
  {
    if '0' <= c <= '9' then Some((c - '0') as nat)
    else if 'a' <= c <= 'z' then Some((c - 'a') as nat + 10)
    else if 'A' <= c <= 'Z' then Some((c - 'A') as nat + 10)
    else None
  }

  predicate IsLetter(c: char) {
    'a' <= c <= 'z' || 'A' <= c <= 'Z'
  }

  predicate IsDigitChar(c: char) {
    '0' <= c <= '9' || IsLetter(c)
  }

  /** The upper-case form of a lower-case ASCII letter; other characters are kept. */
  function ToUpper(c: char): char {
    if 'a' <= c <= 'z' then (c as int - 32) as char else c
  }

  /** The canonical (lower-case) character for a digit value below 36. */
  function DigitChar(d: nat): (c: char)
    requires d < 36
    ensures CharToDigit(c) == Some(d)
  {
    if d < 10 then ('0' as int + d) as char else ('a' as int + d - 10) as char
  }

  /** Letters are read case-insensitively. */
  lemma CaseInsensitive(c: char)
    ensures CharToDigit(ToUpper(c)) == CharToDigit(c)
  {
  }

  /** The only characters read as digit `d` are its canonical character and
      that character's upper-case form. */
  lemma CharToDigitInverse(c: char, d: nat)
    requires CharToDigit(c) == Some(d)
    ensures c == DigitChar(d) || c == ToUpper(DigitChar(d))
  {
  }

  /** `c` is a digit character whose value is below `base`. */
  predicate ValidFor(c: char, base: int) {
    CharToDigit(c).Some? && CharToDigit(c).value < base
  }

  /** The value of a digit character; 0 for any other character. Only
      applied to strings whose characters have all been validated. */
  function DigitValue(c: char): (d: nat)
    ensures CharToDigit(c).Some? ==> CharToDigit(c) == Some(d)
  {
    match CharToDigit(c)
    case Some(d) => d
    case None => 0
  }

  /** Every character of `s` is a digit below `base`. */
  predicate AllValid(s: string, base: int) {
    forall i :: 0 <= i < |s| ==> ValidFor(s[i], base)
  }

  /** The digit values of a string, one per character. */
  function DigitsOf(s: string): (ds: seq<nat>)
    ensures |ds| == |s|
    ensures forall i :: 0 <= i < |s| ==> ds[i] == DigitValue(s[i])
  {
    if |s| == 0 then [] else DigitsOf(s[..|s| - 1]) + [DigitValue(s[|s| - 1])]
  }

  function Pow(b: int, n: nat): int {
    if n == 0 then 1 else Pow(b, n - 1) * b
  }

  /** Positional value, most significant digit first. */
  function Horner(ds: seq<nat>, b: int): int {
    if |ds| == 0 then 0 else Horner(ds[..|ds| - 1], b) * b + ds[|ds| - 1]
  }

  /** Splitting a digit string: the left part is worth its own value times
      b to the length of the right part. This is what lets a right-to-left
      scan with a running multiplier compute the same value. */
  lemma {:induction false} HornerAppend(a: seq<nat>, c: seq<nat>, b: int)
    ensures Horner(a + c, b) == Horner(a, b) * Pow(b, |c|) + Horner(c, b)
    decreases |c|
  {
    if |c| == 0 {
      assert a + c == a;
    } else {
      var c' := c[..|c| - 1];
      var d := c[|c| - 1];
      assert (a + c)[..|a + c| - 1] == a + c';
      assert (a + c)[|a + c| - 1] == d;
      HornerAppend(a, c', b);
      calc {
        Horner(a + c, b);
        Horner(a + c', b) * b + d;
        (Horner(a, b) * Pow(b, |c'|) + Horner(c', b)) * b + d;
        Horner(a, b) * (Pow(b, |c'|) * b) + (Horner(c', b) * b + d);
        Horner(a, b) * Pow(b, |c|) + Horner(c, b);
      }
    }
  }

  /** A trailing digit d is added to b times the value before it. */
  lemma HornerSnoc(ds: seq<nat>, d: nat, b: int)
    ensures Horner(ds + [d], b) == Horner(ds, b) * b + d
  {
    assert (ds + [d])[..|ds|] == ds;
  }

  /** A leading digit d is worth d * b^(number of digits after it). */
  lemma HornerPrepend(d: nat, rest: seq<nat>, b: int)
    ensures Horner([d] + rest, b) == d * Pow(b, |rest|) + Horner(rest, b)
  {
    HornerAppend([d], rest, b);
    assert [d][..0] == [];
    assert Horner([d], b) == d;
  }

  /** A string whose digits are all below b has a value in [0, b^length). */
  lemma {:induction false} HornerBound(ds: seq<nat>, b: int)
    requires forall i :: 0 <= i < |ds| ==> ds[i] < b
    ensures 0 <= Horner(ds, b) < Pow(b, |ds|)
    decreases |ds|
  {
    if |ds| > 0 {
      var p := ds[..|ds| - 1];
      HornerBound(p, b);
      AppendDigitBound(Horner(p, b), Pow(b, |p|), b, ds[|ds| - 1]);
    }
  }

  /** One more digit d < b on a value h < m gives h * b + d < m * b. */
  lemma AppendDigitBound(h: int, m: int, b: int, d: nat)
    requires 0 <= h < m
    requires d < b
    ensures 0 <= h * b + d < m * b
  {
    assert b >= 1;
    MulNonNeg(h, b);
    MulNonNeg(m - 1 - h, b);
    assert (m - 1 - h) * b == m * b - h * b - b;
  }

  lemma MulNonNeg(x: int, y: int)
    requires x >= 0 && y >= 0
    ensures x * y >= 0
  {
  }

  /** The shortest base-b digit string of v (a single "0" for zero). */
  function ToDigits(v: nat, b: int): (ds: seq<nat>)
    requires b >= 2
    ensures |ds| >= 1
    ensures forall i :: 0 <= i < |ds| ==> ds[i] < b
    ensures ds[0] != 0 || v == 0
    ensures Horner(ds, b) == v
    decreases v
  {
    if v < b then
      assert [v][..0] == [];
      [v]
    else
      DivStep(v, b);
      var high := ToDigits(v / b, b);
      var ds := high + [v % b];
      assert ds[..|ds| - 1] == high;
      ds
  }

  lemma DivStep(v: nat, b: int)
    requires 2 <= b <= v
    ensures 1 <= v / b < v
    ensures v == (v / b) * b + v % b
    ensures 0 <= v % b < b
  {
  }

  /** The canonical lower-case spelling of v in base b. */
  function Encode(v: nat, b: int): (s: string)
    requires 2 <= b <= 36
    ensures |s| >= 1
    ensures AllValid(s, b)
    ensures DigitsOf(s) == ToDigits(v, b)
  {
    Spell(ToDigits(v, b), b)
  }

  /** The canonical characters of a sequence of digits below b. */
  function Spell(ds: seq<nat>, b: int): (s: string)
    requires b <= 36
    requires forall i :: 0 <= i < |ds| ==> ds[i] < b
    ensures |s| == |ds|
    ensures AllValid(s, b)
    ensures DigitsOf(s) == ds
  {
    if |ds| == 0 then ""
    else
      var s := Spell(ds[..|ds| - 1], b) + [DigitChar(ds[|ds| - 1])];
      assert s[..|s| - 1] == Spell(ds[..|ds| - 1], b);
      assert ds == ds[..|ds| - 1] + [ds[|ds| - 1]];
      s
  }
}

=== FILE: java_decoder.dfy ===
/** The Java decoder (`decodeFromBase` in PolynomialSolver.java): a chain of
    base comparisons that hands the string to `BigInteger(value, radix)` for
    ten whitelisted bases and throws "Unsupported base" for every other.

    `BigInteger(value, radix)` is read here as the library documents it for
    unsigned ASCII input: a non-empty string of digits below the radix,
    letters in either case, whose positional value is the result; anything
    else is a NumberFormatException. */
module JavaDecoder {
  import opened Types
  import opened Digits
  import CppDecoder

  /** The bases the comparison chain hands to BigInteger. */
  predicate SupportedBase(base: int) {
    base in {2, 3, 4, 6, 7, 8, 10, 12, 15, 16}
  }

  /** The decoder's outcome: an unsupported base fails before the string is
      looked at; with a supported base an empty string or a character that
      is not a digit below the base is a NumberFormatException, and every
      other string yields its positional value, which lies in [0, base^|value|). */
  function Decode(value: string, base: int): (r: Result<int>)
    ensures !SupportedBase(base) ==> r == Err(UnsupportedBase(base))
    ensures SupportedBase(base) ==> (r.Ok? <==> |value| > 0 && AllValid(value, base))
    ensures SupportedBase(base) && r.Err? ==> r.error == NumberFormat(value)
    ensures r.Ok? ==> r.value == Horner(DigitsOf(value), base)
    ensures r.Ok? ==> 0 <= r.value < Pow(base, |value|)
  {
    if !SupportedBase(base) then Err(UnsupportedBase(base))
    else if |value| == 0 || !AllValid(value, base) then Err(NumberFormat(value))
    else
      HornerBound(DigitsOf(value), base);
      Ok(Horner(DigitsOf(value), base))
  }

  /** Where the Java decoder accepts a string, the C++ decoder accepts it too
      and yields the same value; with a whitelisted base they accept exactly
      the same non-empty strings. The empty string is where they part: C++
      reads it as 0 and Java rejects it. */
  lemma AgreesWithCpp(value: string, base: int)
    ensures Decode(value, base).Ok? ==> CppDecoder.Decode(value, base) == Decode(value, base)
    ensures SupportedBase(base) && |value| > 0 ==>
              (Decode(value, base).Ok? <==> CppDecoder.Decode(value, base).Ok?)
    ensures |value| == 0 ==> CppDecoder.Decode(value, base) == Ok(0) && Decode(value, base).Err?
  {
  }

  /** Every whitelisted base decodes the canonical spelling of any natural
      number back to that number. */
  lemma {:induction false} RoundTrip(v: nat, base: int)
    requires SupportedBase(base)
    ensures Decode(Encode(v, base), base) == Ok(v)
    ensures CppDecoder.Decode(Encode(v, base), base) == Ok(v)
  {
    var s := Encode(v, base);
    assert AllValid(s, base);
    CppDecoder.RoundTrip(v, base);
  }

  /** The three worked examples of the source's documentation. */
  lemma DocumentedExamples()
    ensures Decode("111", 2) == Ok(7)
    ensures Decode("213", 4) == Ok(39)
    ensures Decode("a1b2", 16) == Ok(41394)
  {
    ExampleBinary();
    ExampleQuaternary();
    ExampleHex();
  }

  lemma ExampleBinary()
    ensures Decode("111", 2) == Ok(7)
  {
    assert AllValid("111", 2);
    assert DigitsOf("111") == [1, 1, 1];
    HornerSnoc([], 1, 2);
    HornerSnoc([1], 1, 2);
    HornerSnoc([1, 1], 1, 2);
  }

  lemma ExampleQuaternary()
    ensures Decode("213", 4) == Ok(39)
  {
    assert AllValid("213", 4);
    assert DigitsOf("213") == [2, 1, 3];
    HornerSnoc([], 2, 4);
    HornerSnoc([2], 1, 4);
    HornerSnoc([2, 1], 3, 4);
  }

  lemma ExampleHex()
    ensures Decode("a1b2", 16) == Ok(41394)
  {
    assert AllValid("a1b2", 16);
    assert DigitsOf("a1b2") == [10, 1, 11, 2];
    HornerSnoc([], 10, 16);
    assert [] + [10] == [10];
    HornerSnoc([10], 1, 16);
    assert [10] + [1] == [10, 1];
    assert Horner([10, 1], 16) == 161;
    HornerSnoc([10, 1], 11, 16);
    assert [10, 1] + [11] == [10, 1, 11];
    assert Horner([10, 1, 11], 16) == 2587;
    HornerSnoc([10, 1, 11], 2, 16);
    assert [10, 1, 11] + [2] == [10, 1, 11, 2];
  }
}

=== FILE: java_solver.dfy ===
/** The Java strategy (`solvePolynomial` and its helpers in
    PolynomialSolver.java). With three or more points it solves the 3x3
    system  a*x^2 + b*x + c = y  through the first three points by
    Cramer's rule, rounding detC / det to an integer HALF_UP; with fewer
    points, or a zero determinant, it falls back to the reduced model
    f(x) = x^2 + c through the first point. The parameter k plays no part.

    The console warnings become a returned list; they never change c. */
module JavaSolver {
  import opened Types

  function Abs(v: int): nat {
    if v < 0 then -v else v
  }

  /** A diagnostic the source prints instead of failing. */
  datatype Warning =
    | ZeroDeterminant                             // Cramer falls back to the reduced model
    | RootMismatch(root: Point, c: int)           // reduced model: x^2 + c != y
    | RootDifference(root: Point, difference: int) // verification: |y - (x^2 + c)| > 1

  /** The constant the solver returns and the diagnostics it printed. */
  datatype Solution = Solution(c: int, warnings: seq<Warning>)

  // ---------------------------------------------------------------------
  // Determinants.

  /** `det`, the determinant of the rows [x_i^2, x_i, 1], spelled out as in
      the source. It is the Vandermonde product, so it vanishes exactly when
      two of the abscissas coincide. */
  function Det(x1: int, x2: int, x3: int): (d: int)
    ensures d == (x1 - x2) * (x1 - x3) * (x2 - x3)
    ensures d == 0 <==> x1 == x2 || x1 == x3 || x2 == x3
  {
    var d := x1 * x1 * x2 + x2 * x2 * x3 + x3 * x3 * x1 - x1 * x1 * x3 - x2 * x2 * x1 - x3 * x3 * x2;
    VandermondeExpand(x1, x2, x3);
    ProductZero(x1 - x2, x1 - x3, x2 - x3);
    d
  }

  /** The six-term expansion of the Vandermonde product. */
  lemma VandermondeExpand(x1: int, x2: int, x3: int)
    ensures x1 * x1 * x2 + x2 * x2 * x3 + x3 * x3 * x1 - x1 * x1 * x3 - x2 * x2 * x1 - x3 * x3 * x2
         == (x1 - x2) * (x1 - x3) * (x2 - x3)
  {
    var p := (x1 - x2) * (x1 - x3);
    assert p == x1 * x1 - x1 * x3 - x2 * x1 + x2 * x3;
    assert p * (x2 - x3) == p * x2 - p * x3;
    assert p * x2 == x1 * x1 * x2 - x1 * x3 * x2 - x2 * x1 * x2 + x2 * x3 * x2;
    assert p * x3 == x1 * x1 * x3 - x1 * x3 * x3 - x2 * x1 * x3 + x2 * x3 * x3;
  }

  lemma ProductZero(u: int, v: int, w: int)
    ensures u * v * w == 0 <==> u == 0 || v == 0 || w == 0
  {
    if u != 0 && v != 0 && w != 0 {
      assert u * v != 0;
    }
  }

  /** `detC`: the determinant with the third column replaced by the y values. */
  function DetC(x1: int, x2: int, x3: int, y1: int, y2: int, y3: int): int {
    x1 * x1 * x2 * y3 + x2 * x2 * x3 * y1 + x3 * x3 * x1 * y2 - x1 * x1 * x3 * y2 - x2 * x2 * x1 * y3 - x3 * x3 * x2 * y1
  }

  /** The cofactor p^2 * q - q^2 * p. */
  function Cof(p: int, q: int): int {
    p * p * q - q * q * p
  }

  /** Expansion of both determinants along their last column. */
  lemma Cofactors(x1: int, x2: int, x3: int, y1: int, y2: int, y3: int)
    ensures DetC(x1, x2, x3, y1, y2, y3) == y1 * Cof(x2, x3) + y2 * Cof(x3, x1) + y3 * Cof(x1, x2)
    ensures Det(x1, x2, x3) == Cof(x2, x3) + Cof(x3, x1) + Cof(x1, x2)
  {
  }

  /** A determinant with two equal columns is zero. */
  lemma CofactorSums(x1: int, x2: int, x3: int)
    ensures (x1 * x1) * Cof(x2, x3) + (x2 * x2) * Cof(x3, x1) + (x3 * x3) * Cof(x1, x2) == 0
    ensures x1 * Cof(x2, x3) + x2 * Cof(x3, x1) + x3 * Cof(x1, x2) == 0
  {
  }

  /** Cramer's rule for the constant: when the three points lie on
      a*x^2 + b*x + c, detC is c times det. */
  lemma CramerConstant(x1: int, x2: int, x3: int, y1: int, y2: int, y3: int, a: int, b: int, c: int)
    requires y1 == a * (x1 * x1) + b * x1 + c
    requires y2 == a * (x2 * x2) + b * x2 + c
    requires y3 == a * (x3 * x3) + b * x3 + c
    ensures DetC(x1, x2, x3, y1, y2, y3) == c * Det(x1, x2, x3)
  {
    Cofactors(x1, x2, x3, y1, y2, y3);
    CofactorSums(x1, x2, x3);
    CombineQuadratic(x1, x2, x3, y1, y2, y3, a, b, c, Cof(x2, x3), Cof(x3, x1), Cof(x1, x2));
  }

  lemma CombineQuadratic(x1: int, x2: int, x3: int, y1: int, y2: int, y3: int, a: int, b: int, c: int,
                         k1: int, k2: int, k3: int)
    requires y1 == a * (x1 * x1) + b * x1 + c
    requires y2 == a * (x2 * x2) + b * x2 + c
    requires y3 == a * (x3 * x3) + b * x3 + c
    requires (x1 * x1) * k1 + (x2 * x2) * k2 + (x3 * x3) * k3 == 0
    requires x1 * k1 + x2 * k2 + x3 * k3 == 0
    ensures y1 * k1 + y2 * k2 + y3 * k3 == c * (k1 + k2 + k3)
  {
    Distribute(a, b, c, x1 * x1, x1, k1);
    Distribute(a, b, c, x2 * x2, x2, k2);
    Distribute(a, b, c, x3 * x3, x3, k3);
    Collect(a, b, c, (x1 * x1) * k1, (x2 * x2) * k2, (x3 * x3) * k3, x1 * k1, x2 * k2, x3 * k3, k1, k2, k3);
  }

  lemma Distribute(a: int, b: int, c: int, s: int, x: int, k: int)
    ensures (a * s + b * x + c) * k == a * (s * k) + b * (x * k) + c * k
  {
  }

  lemma Collect(a: int, b: int, c: int, s1: int, s2: int, s3: int, t1: int, t2: int, t3: int,
                k1: int, k2: int, k3: int)
    ensures (a * s1 + b * t1 + c * k1) + (a * s2 + b * t2 + c * k2) + (a * s3 + b * t3 + c * k3)
         == a * (s1 + s2 + s3) + b * (t1 + t2 + t3) + c * (k1 + k2 + k3)
  {
  }

  // ---------------------------------------------------------------------
  // HALF_UP division to scale 0.

  /** q is an integer nearest to n / d, and of two equally near ones it is
      the one farther from zero (HALF_UP). */
  predicate HalfUpQuotient(n: int, d: int, q: int) {
    2 * Abs(n - q * d) <= Abs(d) &&
    (2 * Abs(n - q * d) == Abs(d) ==> Abs(q * d) > Abs(n))
  }

  /** `n.divide(d, 0, RoundingMode.HALF_UP)`: the integer nearest to n / d,
      halfway cases rounded away from zero. */
  function DivHalfUp(n: int, d: int): (q: int)
    requires d != 0
    ensures 2 * Abs(n - q * d) <= Abs(d)
    ensures 2 * Abs(n - q * d) == Abs(d) ==> Abs(q * d) > Abs(n)
  {
    var m := (2 * Abs(n) + Abs(d)) / (2 * Abs(d));
    HalfUpMagnitude(Abs(n), Abs(d));
    var q := if (n < 0) == (d < 0) then m else -m;
    SignCases(n, d, m, q);
    q
  }

  lemma HalfUpMagnitude(a: nat, b: int)
    requires b > 0
    ensures var m := (2 * a + b) / (2 * b);
      m >= 0 && -b <= 2 * (a - m * b) < b
  {
    var m := (2 * a + b) / (2 * b);
    var r := (2 * a + b) % (2 * b);
    assert 2 * a + b == m * (2 * b) + r && 0 <= r < 2 * b;
    assert 2 * (a - m * b) == r - b;
  }

  lemma SignCases(n: int, d: int, m: int, q: int)
    requires d != 0 && m >= 0
    requires q == if (n < 0) == (d < 0) then m else -m
    ensures Abs(n - q * d) == Abs(Abs(n) - m * Abs(d))
    ensures Abs(q * d) == m * Abs(d)
  {
    if n < 0 && d < 0 {
      assert q * d == -(m * Abs(d));
    } else if n < 0 {
      assert q * d == -(m * Abs(d));
    } else if d < 0 {
      assert q * d == m * Abs(d);
    }
  }

  /** An exact quotient is returned unchanged: HALF_UP rounding is a no-op. */
  lemma DivHalfUpExact(c: int, d: int)
    requires d != 0
    ensures DivHalfUp(c * d, d) == c
  {
    NearestMultiple(c * d, d, DivHalfUp(c * d, d), c);
  }

  /** Among the multiples of d, only c * d itself lies within |d| / 2 of c * d. */
  lemma NearestMultiple(n: int, d: int, q: int, c: int)
    requires d != 0 && n == c * d && 2 * Abs(n - q * d) <= Abs(d)
    ensures q == c
  {
    assert n - q * d == (c - q) * d;
    if c != q {
      AbsMulLower(c - q, d);
    }
  }

  lemma AbsMulLower(e: int, d: int)
    requires e != 0 && d != 0
    ensures Abs(e * d) >= Abs(d)
  {
  }

  // ---------------------------------------------------------------------
  // The reduced model and the diagnostics.

  /** The point satisfies f(x) = x^2 + c exactly. */
  predicate OnReducedModel(p: Point, c: int) {
    p.x * p.x + c == p.y
  }

  /** The check loop of `solveSimplePolynomial` over roots[from..]: one
      warning per root off the reduced model, in order. */
  function Mismatches(roots: seq<Point>, from: nat, c: int): (ws: seq<Warning>)
    ensures |ws| <= if from < |roots| then |roots| - from else 0
    ensures forall w :: w in ws <==>
              exists j :: from <= j < |roots| && !OnReducedModel(roots[j], c) && w == RootMismatch(roots[j], c)
    ensures |ws| == |set j | from <= j < |roots| && !OnReducedModel(roots[j], c)|
    decreases |roots| - from
  {
    if from >= |roots| then []
    else
      var rest := Mismatches(roots, from + 1, c);
      if OnReducedModel(roots[from], c) then
        assert (set j | from <= j < |roots| && !OnReducedModel(roots[j], c))
            == (set j | from + 1 <= j < |roots| && !OnReducedModel(roots[j], c));
        rest
      else
        assert (set j | from <= j < |roots| && !OnReducedModel(roots[j], c))
            == (set j | from + 1 <= j < |roots| && !OnReducedModel(roots[j], c)) + {from};
        [RootMismatch(roots[from], c)] + rest
  }

  /** `solveSimplePolynomial`: c = y0 - x0^2, so the reduced model passes
      through the first root; every later root off the model is reported. */
  function SolveSimple(roots: seq<Point>): (r: Solution)
    requires |roots| >= 1
    ensures OnReducedModel(roots[0], r.c)
    ensures forall w :: w in r.warnings <==>
              exists j :: 1 <= j < |roots| && !OnReducedModel(roots[j], r.c) && w == RootMismatch(roots[j], r.c)
  {
    var c := roots[0].y - roots[0].x * roots[0].x;
    Solution(c, Mismatches(roots, 1, c))
  }

  /** The squared-model deviation |y - (x^2 + c)| of one root. */
  function Deviation(p: Point, c: int): nat {
    Abs(p.y - (p.x * p.x + c))
  }

  /** `verifySolution` from roots[from] on: one warning per root whose
      deviation from x^2 + c exceeds 1, in order. */
  function VerifySolution(roots: seq<Point>, from: nat, c: int): (ws: seq<Warning>)
    ensures |ws| <= if from < |roots| then |roots| - from else 0
    ensures forall i :: 0 <= i < |ws| ==> ws[i].RootDifference?
    ensures forall w :: w in ws <==>
              exists j :: from <= j < |roots| && Deviation(roots[j], c) > 1 && w == RootDifference(roots[j], Deviation(roots[j], c))
    ensures |ws| == |set j | from <= j < |roots| && Deviation(roots[j], c) > 1|
    decreases |roots| - from
  {
    if from >= |roots| then []
    else
      var rest := VerifySolution(roots, from + 1, c);
      var diff := Deviation(roots[from], c);
      if diff > 1 then
        assert (set j | from <= j < |roots| && Deviation(roots[j], c) > 1)
            == (set j | from + 1 <= j < |roots| && Deviation(roots[j], c) > 1) + {from};
        [RootDifference(roots[from], diff)] + rest
      else
        assert (set j | from <= j < |roots| && Deviation(roots[j], c) > 1)
            == (set j | from + 1 <= j < |roots| && Deviation(roots[j], c) > 1);
        rest
  }

  // ---------------------------------------------------------------------
  // The solver.

  /** `solveSystemOfEquations`: Cramer's rule on the first three roots, or
      the reduced model when their determinant is zero. With a non-zero
      determinant c is an integer nearest to detC / det; otherwise the
      reduced model passes through the first root. */
  function SolveSystem(roots: seq<Point>): (r: Solution)
    requires |roots| >= 3
    ensures var det := Det(roots[0].x, roots[1].x, roots[2].x);
      det != 0 ==> HalfUpQuotient(DetC(roots[0].x, roots[1].x, roots[2].x, roots[0].y, roots[1].y, roots[2].y), det, r.c)
    ensures Det(roots[0].x, roots[1].x, roots[2].x) == 0 ==> OnReducedModel(roots[0], r.c)
  {
    var p1, p2, p3 := roots[0], roots[1], roots[2];
    var det := Det(p1.x, p2.x, p3.x);
    if det == 0 then
      var s := SolveSimple(roots);
      Solution(s.c, [ZeroDeterminant] + s.warnings)
    else
      var c := DivHalfUp(DetC(p1.x, p2.x, p3.x, p1.y, p2.y, p3.y), det);
      Solution(c, VerifySolution(roots, 0, c))
  }

  /** `solvePolynomial`: no roots is an error; three or more go to Cramer's
      rule (rounded HALF_UP, or the reduced model when the determinant is
      zero), fewer to the reduced model through the first root. */
  function SolvePolynomial(roots: seq<Point>): (r: Result<Solution>)
    ensures r.Err? <==> |roots| == 0
    ensures r.Err? ==> r.error == NoRoots
    ensures 0 < |roots| < 3 ==> OnReducedModel(roots[0], r.value.c)
    ensures |roots| >= 3 && Det(roots[0].x, roots[1].x, roots[2].x) != 0 ==>
              HalfUpQuotient(DetC(roots[0].x, roots[1].x, roots[2].x, roots[0].y, roots[1].y, roots[2].y),
                             Det(roots[0].x, roots[1].x, roots[2].x), r.value.c)
    ensures |roots| >= 3 && Det(roots[0].x, roots[1].x, roots[2].x) == 0 ==> OnReducedModel(roots[0], r.value.c)
  {
    if |roots| == 0 then Err(NoRoots)
    else if |roots| >= 3 then Ok(SolveSystem(roots))
    else Ok(SolveSimple(roots))
  }

  /** The Cramer path reads only the first three roots: whatever follows,
      and whatever the verification reports about it, c is the same. */
  lemma SystemUsesFirstThree(roots: seq<Point>, other: seq<Point>)
    requires |roots| >= 3 && |other| >= 3
    requires roots[..3] == other[..3]
    ensures SolveSystem(roots).c == SolveSystem(other).c
  {
    assert roots[0] == roots[..3][0] && roots[1] == roots[..3][1] && roots[2] == roots[..3][2];
    assert other[0] == other[..3][0] && other[1] == other[..3][1] && other[2] == other[..3][2];
  }

  /** The reduced model reads only the first root. */
  lemma SimpleUsesFirst(roots: seq<Point>, other: seq<Point>)
    requires |roots| >= 1 && |other| >= 1 && roots[0] == other[0]
    ensures SolveSimple(roots).c == SolveSimple(other).c
  {
  }

  /** The zero-determinant fallback happens exactly when two of the first
      three abscissas coincide. */
  lemma FallbackIffCoincide(roots: seq<Point>)
    requires |roots| >= 3
    ensures SolveSystem(roots).warnings != [] && SolveSystem(roots).warnings[0] == ZeroDeterminant
        <==> roots[0].x == roots[1].x || roots[0].x == roots[2].x || roots[1].x == roots[2].x
  {
    var p1, p2, p3 := roots[0], roots[1], roots[2];
    var det := Det(p1.x, p2.x, p3.x);
    if det != 0 {
      var c := DivHalfUp(DetC(p1.x, p2.x, p3.x, p1.y, p2.y, p3.y), det);
      assert SolveSystem(roots).warnings == VerifySolution(roots, 0, c);
    }
  }

  /** If the first three roots have distinct abscissas and lie on the
      integer quadratic a*x^2 + b*x + c, the Cramer path returns exactly c. */
  lemma SystemExactOnQuadratic(roots: seq<Point>, a: int, b: int, c: int)
    requires |roots| >= 3
    requires roots[0].x != roots[1].x && roots[0].x != roots[2].x && roots[1].x != roots[2].x
    requires forall i :: 0 <= i < 3 ==> roots[i].y == a * (roots[i].x * roots[i].x) + b * roots[i].x + c
    ensures SolveSystem(roots).c == c
  {
    var p1, p2, p3 := roots[0], roots[1], roots[2];
    CramerConstant(p1.x, p2.x, p3.x, p1.y, p2.y, p3.y, a, b, c);
    DivHalfUpExact(c, Det(p1.x, p2.x, p3.x));
  }

  /** The same for the whole solver. */
  lemma SolveExactOnQuadratic(roots: seq<Point>, a: int, b: int, c: int)
    requires |roots| >= 3
    requires roots[0].x != roots[1].x && roots[0].x != roots[2].x && roots[1].x != roots[2].x
    requires forall i :: 0 <= i < 3 ==> roots[i].y == a * (roots[i].x * roots[i].x) + b * roots[i].x + c
    ensures SolvePolynomial(roots).Ok? && SolvePolynomial(roots).value.c == c
  {
    SystemExactOnQuadratic(roots, a, b, c);
  }
}

=== FILE: lagrange.dfy ===
/** Lagrange interpolation at zero, as `lagrangeInterpolationAtZero` in
    test.cpp computes it: for nodes xs and values ys,

        sum over i of  ys[i] * product over j != i of (-xs[j]) / (xs[i] - xs[j]).

    The sum is taken in exact rational arithmetic (`real`). The main theorem
    says that it is exact: when the nodes are distinct and the values lie on
    an integer polynomial with at most |xs| coefficients, the sum is that
    polynomial's constant term.

    The proof clears denominators. With N_i(t) = product over j != i of
    (t - xs[j]), D_i = N_i(xs[i]) and W the product of all D_i, the integer
    polynomial  sum_i ys[i] * (W / D_i) * N_i(t) - W * f(t)  has at most |xs|
    coefficients and vanishes at every node, so it is zero; at t = 0 this
    is W times the rational sum minus W times f(0). */
module Lagrange {
  import opened Polynomial

  lemma DistinctPair(xs: seq<int>, i: int, j: int)
    requires Distinct(xs)
    requires 0 <= i < |xs| && 0 <= j < |xs| && i != j
    ensures xs[i] != xs[j]
  {
    if j < i {
      assert xs[j] != xs[i];
    }
  }

  // ---------------------------------------------------------------------
  // The computation of test.cpp, over exact rationals.

  /** The basis factor of node i over the nodes j < m:
      the product of (-xs[j]) / (xs[i] - xs[j]) for j != i. */
  function BasisAtZero(xs: seq<int>, i: int, m: nat): real
    requires Distinct(xs) && 0 <= i < |xs| && m <= |xs|
  {
    if m == 0 then 1.0
    else if m - 1 == i then BasisAtZero(xs, i, m - 1)
    else
      DistinctPair(xs, i, m - 1);
      var xj := xs[m - 1] as real;
      BasisAtZero(xs, i, m - 1) * ((-xj) / (xs[i] as real - xj))
  }

  /** The sum of ys[i] times its basis factor over the nodes i < m. */
  function SumTerms(xs: seq<int>, ys: seq<int>, m: nat): real
    requires Distinct(xs) && |ys| == |xs| && m <= |xs|
  {
    if m == 0 then 0.0
    else SumTerms(xs, ys, m - 1) + ys[m - 1] as real * BasisAtZero(xs, m - 1, |xs|)
  }

  /** The interpolant through all the points (xs[i], ys[i]), evaluated at zero. */
  function InterpolateAtZero(xs: seq<int>, ys: seq<int>): real
    requires Distinct(xs) && |ys| == |xs|
  {
    SumTerms(xs, ys, |xs|)
  }

  // ---------------------------------------------------------------------
  // Integer node products.

  /** N_i(t) over the nodes j < m: the product of (t - xs[j]) for j != i. */
  function NodeProd(xs: seq<int>, i: int, m: nat, t: int): int
    requires m <= |xs|
  {
    if m == 0 then 1
    else if m - 1 == i then NodeProd(xs, i, m - 1, t)
    else (t - xs[m - 1]) * NodeProd(xs, i, m - 1, t)
  }

  /** The coefficients of N_i over the nodes j < m: one factor (t - xs[j])
      per node other than i, so m coefficients when i < m. */
  function NodePoly(xs: seq<int>, i: int, m: nat): (p: seq<int>)
    requires m <= |xs|
    ensures |p| == if 0 <= i < m then m else m + 1
  {
    if m == 0 then [1]
    else if m - 1 == i then NodePoly(xs, i, m - 1)
    else MulLinear(NodePoly(xs, i, m - 1), xs[m - 1])
  }

  lemma {:induction false} EvalNodePoly(xs: seq<int>, i: int, m: nat, t: int)
    requires m <= |xs|
    ensures Eval(NodePoly(xs, i, m), t) == NodeProd(xs, i, m, t)
  {
    if m == 0 {
      assert Eval([1], t) == 1 + t * Eval([], t);
    } else if m - 1 == i {
      EvalNodePoly(xs, i, m - 1, t);
    } else {
      EvalNodePoly(xs, i, m - 1, t);
      EvalMulLinear(NodePoly(xs, i, m - 1), xs[m - 1], t);
    }
  }

  /** N_i vanishes at every other node. */
  lemma {:induction false} NodeVanishes(xs: seq<int>, i: int, m: nat, k: int)
    requires m <= |xs| && 0 <= k < m && k != i
    ensures NodeProd(xs, i, m, xs[k]) == 0
  {
    if k < m - 1 {
      NodeVanishes(xs, i, m - 1, k);
    }
  }

  /** N_i does not vanish at its own node. */
  lemma {:induction false} NodeNonzero(xs: seq<int>, i: int, m: nat)
    requires Distinct(xs) && 0 <= i < |xs| && m <= |xs|
    ensures NodeProd(xs, i, m, xs[i]) != 0
  {
    if m > 0 {
      NodeNonzero(xs, i, m - 1);
      if m - 1 != i {
        DistinctPair(xs, i, m - 1);
        MulNonzero(xs[i] - xs[m - 1], NodeProd(xs, i, m - 1, xs[i]));
      }
    }
  }

  lemma MulNonzero(a: int, b: int)
    requires a != 0 && b != 0
    ensures a * b != 0
  {
  }

  // ---------------------------------------------------------------------
  // Denominators.

  /** D_i = N_i(xs[i]) over all the nodes. */
  function Denom(xs: seq<int>, i: int): int
    requires 0 <= i < |xs|
  {
    NodeProd(xs, i, |xs|, xs[i])
  }

  /** The product of D_l over l < m, leaving out l == skip. */
  function DenomProd(xs: seq<int>, m: nat, skip: int): int
    requires m <= |xs|
  {
    if m == 0 then 1
    else if m - 1 == skip then DenomProd(xs, m - 1, skip)
    else DenomProd(xs, m - 1, skip) * Denom(xs, m - 1)
  }

  /** The common denominator W: the product of every D_l. */
  function CommonDenom(xs: seq<int>): int {
    DenomProd(xs, |xs|, -1)
  }

  /** Leaving out an index outside [0, m) leaves out nothing. */
  lemma {:induction false} SkipOutside(xs: seq<int>, m: nat, skip: int)
    requires m <= |xs| && !(0 <= skip < m)
    ensures DenomProd(xs, m, skip) == DenomProd(xs, m, -1)
  {
    if m > 0 {
      SkipOutside(xs, m - 1, skip);
    }
  }

  /** The cofactor of i (every D_l but D_i) times D_i is the full product. */
  lemma {:induction false} Cofactor(xs: seq<int>, m: nat, i: int)
    requires m <= |xs| && 0 <= i < m
    ensures DenomProd(xs, m, i) * Denom(xs, i) == DenomProd(xs, m, -1)
  {
    if m - 1 == i {
      SkipOutside(xs, m - 1, i);
    } else {
      Cofactor(xs, m - 1, i);
      SwapLast(DenomProd(xs, m - 1, i), Denom(xs, i), Denom(xs, m - 1));
    }
  }

  lemma SwapLast(c: int, d: int, e: int)
    ensures (c * e) * d == (c * d) * e
  {
  }

  lemma {:induction false} DenomProdNonzero(xs: seq<int>, m: nat, skip: int)
    requires Distinct(xs) && m <= |xs|
    ensures DenomProd(xs, m, skip) != 0
  {
    if m > 0 {
      DenomProdNonzero(xs, m - 1, skip);
      if m - 1 != skip {
        NodeNonzero(xs, m - 1, |xs|);
        MulNonzero(DenomProd(xs, m - 1, skip), Denom(xs, m - 1));
      }
    }
  }

  // ---------------------------------------------------------------------
  // The interpolant with denominators cleared.

  /** The weights ys[i] * (W / D_i), with W / D_i the cofactor of i. */
  function Weights(xs: seq<int>, ys: seq<int>): (ws: seq<int>)
    requires |ys| == |xs|
    ensures |ws| == |xs|
    ensures forall i :: 0 <= i < |xs| ==> ws[i] == ys[i] * DenomProd(xs, |xs|, i)
  {
    seq(|xs|, i requires 0 <= i < |xs| => ys[i] * DenomProd(xs, |xs|, i))
  }

  /** The sum over i < m of ws[i] * N_i(t). */
  function ScaledSum(xs: seq<int>, ws: seq<int>, m: nat, t: int): int
    requires m <= |xs| == |ws|
  {
    if m == 0 then 0
    else ScaledSum(xs, ws, m - 1, t) + ws[m - 1] * NodeProd(xs, m - 1, |xs|, t)
  }

  /** The coefficients of ScaledSum: at most |xs| of them. */
  function ScaledPoly(xs: seq<int>, ws: seq<int>, m: nat): (p: seq<int>)
    requires m <= |xs| == |ws|
    ensures |p| <= |xs|
  {
    if m == 0 then []
    else Add(ScaledPoly(xs, ws, m - 1), Scale(NodePoly(xs, m - 1, |xs|), ws[m - 1]))
  }

  lemma {:induction false} EvalScaledPoly(xs: seq<int>, ws: seq<int>, m: nat, t: int)
    requires m <= |xs| == |ws|
    ensures Eval(ScaledPoly(xs, ws, m), t) == ScaledSum(xs, ws, m, t)
  {
    if m > 0 {
      EvalScaledPoly(xs, ws, m - 1, t);
      var np := NodePoly(xs, m - 1, |xs|);
      EvalAdd(ScaledPoly(xs, ws, m - 1), Scale(np, ws[m - 1]), t);
      EvalScale(np, ws[m - 1], t);
      EvalNodePoly(xs, m - 1, |xs|, t);
    }
  }

  /** At node k only the k-th term survives, and it is ws[k] * D_k. */
  lemma {:induction false} ScaledSumAtNode(xs: seq<int>, ws: seq<int>, m: nat, k: int)
    requires m <= |xs| == |ws| && 0 <= k < |xs|
    ensures ScaledSum(xs, ws, m, xs[k]) == if k < m then ws[k] * Denom(xs, k) else 0
  {
    if m > 0 {
      ScaledSumAtNode(xs, ws, m - 1, k);
      if m - 1 != k {
        NodeVanishes(xs, m - 1, |xs|, k);
      }
    }
  }

  /** The weight of node k times D_k is ys[k] * W. */
  lemma WeightAtNode(xs: seq<int>, ys: seq<int>, k: int)
    requires |ys| == |xs| && 0 <= k < |xs|
    ensures Weights(xs, ys)[k] * Denom(xs, k) == CommonDenom(xs) * ys[k]
  {
    Cofactor(xs, |xs|, k);
    var y, c, d := ys[k], DenomProd(xs, |xs|, k), Denom(xs, k);
    Regroup(y, c, d);
  }

  lemma Regroup(y: int, c: int, d: int)
    ensures (y * c) * d == (c * d) * y
  {
  }

  /** The cleared-denominator identity at zero. */
  lemma ScaledExact(xs: seq<int>, ys: seq<int>, f: seq<int>)
    requires Distinct(xs) && |ys| == |xs|
    requires |f| <= |xs|
    requires forall k :: 0 <= k < |xs| ==> ys[k] == Eval(f, xs[k])
    ensures ScaledSum(xs, Weights(xs, ys), |xs|, 0) == CommonDenom(xs) * Eval(f, 0)
  {
    var w := CommonDenom(xs);
    var ws := Weights(xs, ys);
    var s := ScaledPoly(xs, ws, |xs|);
    var d := Sub(s, Scale(f, w));
    forall k | 0 <= k < |xs|
      ensures Eval(d, xs[k]) == 0
    {
      NodeIsRoot(xs, ys, f, k);
    }
    VanishingIsZero(d, xs, 0);
    EvalSub(s, Scale(f, w), 0);
    EvalScale(f, w, 0);
    EvalScaledPoly(xs, ws, |xs|, 0);
  }

  /** The cleared difference vanishes at node k. */
  lemma NodeIsRoot(xs: seq<int>, ys: seq<int>, f: seq<int>, k: int)
    requires |ys| == |xs| && 0 <= k < |xs| && ys[k] == Eval(f, xs[k])
    ensures Eval(Sub(ScaledPoly(xs, Weights(xs, ys), |xs|), Scale(f, CommonDenom(xs))), xs[k]) == 0
  {
    var w, ws := CommonDenom(xs), Weights(xs, ys);
    var s := ScaledPoly(xs, ws, |xs|);
    EvalSub(s, Scale(f, w), xs[k]);
    EvalScale(f, w, xs[k]);
    EvalScaledPoly(xs, ws, |xs|, xs[k]);
    ScaledSumAtNode(xs, ws, |xs|, k);
    WeightAtNode(xs, ys, k);
  }

  // ---------------------------------------------------------------------
  // From the rational sum to the cleared one.

  /** The basis factor is N_i(0) / N_i(xs[i]) over the same nodes. */
  lemma {:induction false} BasisAsQuotient(xs: seq<int>, i: int, m: nat)
    requires Distinct(xs) && 0 <= i < |xs| && m <= |xs|
    ensures NodeProd(xs, i, m, xs[i]) != 0
    ensures BasisAtZero(xs, i, m) == NodeProd(xs, i, m, 0) as real / NodeProd(xs, i, m, xs[i]) as real
  {
    NodeNonzero(xs, i, m);
    if m > 0 {
      BasisAsQuotient(xs, i, m - 1);
    }
    if m > 0 && m - 1 != i {
      NodeNonzero(xs, i, m - 1);
      DistinctPair(xs, i, m - 1);
      BasisStep(NodeProd(xs, i, m - 1, 0), NodeProd(xs, i, m - 1, xs[i]), xs[i], xs[m - 1],
                BasisAtZero(xs, i, m - 1));
    }
  }

  /** One factor of the basis product, over the integers. */
  lemma BasisStep(num: int, den: int, xi: int, xj: int, b: real)
    requires den != 0 && xi != xj
    requires b == num as real / den as real
    ensures b * ((-(xj as real)) / (xi as real - xj as real))
         == ((0 - xj) * num) as real / ((xi - xj) * den) as real
  {
    var u, v := -(xj as real), xi as real - xj as real;
    CastMul(0 - xj, num);
    CastMul(xi - xj, den);
    assert (0 - xj) as real == u && (xi - xj) as real == v;
    QuotientProduct(num as real, den as real, u, v);
  }

  lemma CastMul(a: int, b: int)
    ensures (a * b) as real == a as real * b as real
  {
  }

  lemma QuotientProduct(a: real, b: real, c: real, d: real)
    requires b != 0.0 && d != 0.0
    ensures (a / b) * (c / d) == (c * a) / (d * b)
  {
  }

  /** One term of the sum, over the common denominator W. */
  lemma TermAsQuotient(xs: seq<int>, ys: seq<int>, i: int)
    requires Distinct(xs) && |ys| == |xs| && 0 <= i < |xs|
    ensures CommonDenom(xs) != 0
    ensures ys[i] as real * BasisAtZero(xs, i, |xs|)
         == (Weights(xs, ys)[i] * NodeProd(xs, i, |xs|, 0)) as real / CommonDenom(xs) as real
  {
    BasisAsQuotient(xs, i, |xs|);
    Cofactor(xs, |xs|, i);
    DenomProdNonzero(xs, |xs|, i);
    TermStep(ys[i], DenomProd(xs, |xs|, i), NodeProd(xs, i, |xs|, 0), Denom(xs, i),
             BasisAtZero(xs, i, |xs|), Weights(xs, ys)[i], CommonDenom(xs));
  }

  /** y * (num / d) == (y * c * num) / (c * d), over the integers. */
  lemma TermStep(y: int, c: int, num: int, d: int, b: real, wi: int, w: int)
    requires c != 0 && d != 0
    requires b == num as real / d as real && wi == y * c && w == c * d
    ensures w != 0
    ensures y as real * b == (wi * num) as real / w as real
  {
    MulNonzero(c, d);
    CastMul(y, c);
    CastMul(wi, num);
    CastMul(c, d);
    ExpandQuotient(y as real, c as real, num as real, d as real);
  }

  lemma ExpandQuotient(y: real, c: real, num: real, d: real)
    requires c != 0.0 && d != 0.0
    ensures y * (num / d) == ((y * c) * num) / (c * d)
  {
  }

  /** The partial sums, over the common denominator W. */
  lemma {:induction false} SumAsQuotient(xs: seq<int>, ys: seq<int>, m: nat)
    requires Distinct(xs) && |ys| == |xs| && m <= |xs|
    ensures CommonDenom(xs) != 0
    ensures SumTerms(xs, ys, m) == ScaledSum(xs, Weights(xs, ys), m, 0) as real / CommonDenom(xs) as real
  {
    DenomProdNonzero(xs, |xs|, -1);
    if m > 0 {
      SumAsQuotient(xs, ys, m - 1);
      SumStep(xs, ys, m);
    }
  }

  /** One step of SumAsQuotient: adding term m - 1 to a partial sum that
      is already over W keeps it over W. */
  lemma SumStep(xs: seq<int>, ys: seq<int>, m: nat)
    requires Distinct(xs) && |ys| == |xs| && 0 < m <= |xs|
    requires CommonDenom(xs) != 0
    requires SumTerms(xs, ys, m - 1) == ScaledSum(xs, Weights(xs, ys), m - 1, 0) as real / CommonDenom(xs) as real
    ensures SumTerms(xs, ys, m) == ScaledSum(xs, Weights(xs, ys), m, 0) as real / CommonDenom(xs) as real
  {
    TermAsQuotient(xs, ys, m - 1);
    var ws := Weights(xs, ys);
    var a, b := ScaledSum(xs, ws, m - 1, 0), ws[m - 1] * NodeProd(xs, m - 1, |xs|, 0);
    var qa, qb := SumTerms(xs, ys, m - 1), ys[m - 1] as real * BasisAtZero(xs, m - 1, |xs|);
    assert SumTerms(xs, ys, m) == qa + qb;
    assert ScaledSum(xs, ws, m, 0) == a + b;
    AddQuotients(a, b, CommonDenom(xs), qa, qb);
  }

  /** a / w + b / w == (a + b) / w, over the integers. */
  lemma AddQuotients(a: int, b: int, w: int, qa: real, qb: real)
    requires w != 0 && qa == a as real / w as real && qb == b as real / w as real
    ensures qa + qb == (a + b) as real / w as real
  {
  }

  /** Exactness: values on an integer polynomial with at most |xs|
      coefficients, at distinct nodes, interpolate to its constant term. */
  lemma InterpolationExact(xs: seq<int>, ys: seq<int>, f: seq<int>)
    requires Distinct(xs) && |ys| == |xs|
    requires |f| <= |xs|
    requires forall k :: 0 <= k < |xs| ==> ys[k] == Eval(f, xs[k])
    ensures InterpolateAtZero(xs, ys) == Eval(f, 0) as real
  {
    SumAsQuotient(xs, ys, |xs|);
    ScaledExact(xs, ys, f);
    CancelQuotient(CommonDenom(xs), Eval(f, 0));
  }

  lemma CancelQuotient(w: int, v: int)
    requires w != 0
    ensures (w * v) as real / w as real == v as real
  {
    assert (w * v) as real == w as real * v as real;
  }
}

=== FILE: pipeline.dfy ===
/** `processTestCase` in both implementations: read the points, solve for
    the constant term, and report the declared n and k with the points and
    the constant. Where the two implementations meet and where they part is
    stated here: both recover c from three or more distinct points of an
    integer quadratic, and they disagree on a single point, where Java
    subtracts x^2 and C++ does not. */
module Pipeline {
  import opened Types
  import opened Polynomial
  import Points
  import JavaDecoder
  import JavaSolver
  import CppSolver

  /** The record `processTestCase` returns. */
  datatype ProcessResult = ProcessResult(n: int, k: int, roots: seq<Point>, constantC: int)

  /** Java's `processTestCase`: the points come from indices 1..n, and the
      solver never looks at k. Its diagnostics are printed, not returned. */
  function JavaProcessTestCase(entries: map<int, Points.Entry>, n: int, k: int): (r: Result<ProcessResult>)
    ensures Points.JavaReadPoints(entries, n).Err? ==> r == Err(Points.JavaReadPoints(entries, n).error)
    ensures r.Ok? <==> Points.JavaReadPoints(entries, n).Ok? && |Points.JavaReadPoints(entries, n).value| > 0
    ensures Points.JavaReadPoints(entries, n).Ok? && r.Err? ==> r.error == NoRoots
    ensures r.Ok? ==> r.value.n == n && r.value.k == k && r.value.roots == Points.JavaReadPoints(entries, n).value
  {
    var roots :- Points.JavaReadPoints(entries, n);
    var s :- JavaSolver.SolvePolynomial(roots);
    Ok(ProcessResult(n, k, roots, s.c))
  }

  /** C++'s `processTestCase`: the points come from indices 1..20, and the
      solver uses the first min(k, |roots|) of them. Since the read yields
      strictly increasing x, the interpolation never meets a duplicate x:
      any non-empty read is solved. */
  function CppProcessTestCase(entries: map<int, Points.Entry>, n: int, k: int): (r: Result<ProcessResult>)
    ensures Points.CppReadPoints(entries).Err? ==> r == Err(Points.CppReadPoints(entries).error)
    ensures r.Ok? <==> Points.CppReadPoints(entries).Ok? && |Points.CppReadPoints(entries).value| > 0
    ensures Points.CppReadPoints(entries).Ok? && |Points.CppReadPoints(entries).value| == 0 ==> r == Err(NoRoots)
    ensures r.Ok? ==> r.value.n == n && r.value.k == k && r.value.roots == Points.CppReadPoints(entries).value
    ensures r.Ok? ==> CppSolver.SolvePolynomial(r.value.roots, k) == Ok(r.value.constantC)
  {
    var roots :- Points.CppReadPoints(entries);
    Points.CppPointsInRange(entries);
    IncreasingSolves(roots, k);
    var c :- CppSolver.SolvePolynomial(roots, k);
    Ok(ProcessResult(n, k, roots, c))
  }

  /** On a list with strictly increasing x, whatever k is, the C++ solver
      fails only on the empty list: the points it uses are a prefix, so
      their x are distinct. */
  lemma IncreasingSolves(roots: seq<Point>, k: int)
    requires Points.StrictlyIncreasingX(roots)
    ensures CppSolver.SolvePolynomial(roots, k).Ok? <==> |roots| > 0
  {
    if |roots| == 0 {
      return;
    }
    var xs := CppSolver.Xs(CppSolver.UsedPoints(roots, CppSolver.NumPoints(k, |roots|)));
    assert Distinct(xs) by {
      forall i, j | 0 <= i < j < |xs|
        ensures xs[i] != xs[j]
      {
        assert xs[i] == roots[i].x && xs[j] == roots[j].x;
      }
    }
  }

  /** The Java constant does not depend on k. */
  lemma JavaIgnoresK(entries: map<int, Points.Entry>, n: int, k1: int, k2: int)
    ensures JavaProcessTestCase(entries, n, k1).Ok? == JavaProcessTestCase(entries, n, k2).Ok?
    ensures JavaProcessTestCase(entries, n, k1).Ok? ==>
              JavaProcessTestCase(entries, n, k1).value.constantC == JavaProcessTestCase(entries, n, k2).value.constantC
  {
  }

  /** The value of the quadratic with coefficient list [c, b, a]. */
  lemma EvalQuadratic(a: int, b: int, c: int, x: int)
    ensures Eval([c, b, a], x) == a * (x * x) + b * x + c
  {
    var p := [c, b, a];
    assert p[1..] == [b, a] && p[1..][1..] == [a] && p[1..][1..][1..] == [];
    assert Eval([a], x) == a;
    assert Eval([b, a], x) == b + x * a;
    Expand(a, b, c, x);
  }

  lemma Expand(a: int, b: int, c: int, x: int)
    ensures c + x * (b + x * a) == a * (x * x) + b * x + c
  {
  }

  /** Points with strictly increasing x on the integer quadratic
      a*x^2 + b*x + c, at least three of them, and k >= 3: both solvers
      return c. */
  lemma SolversAgreeOnQuadratic(roots: seq<Point>, k: int, a: int, b: int, c: int)
    requires |roots| >= 3 && k >= 3
    requires Points.StrictlyIncreasingX(roots)
    requires forall i :: 0 <= i < |roots| ==> roots[i].y == a * (roots[i].x * roots[i].x) + b * roots[i].x + c
    ensures JavaSolver.SolvePolynomial(roots).Ok? && JavaSolver.SolvePolynomial(roots).value.c == c
    ensures CppSolver.SolvePolynomial(roots, k) == Ok(c)
  {
    JavaSolver.SolveExactOnQuadratic(roots, a, b, c);
    var m := CppSolver.NumPoints(k, |roots|);
    var xs := CppSolver.Xs(CppSolver.UsedPoints(roots, m));
    assert Distinct(xs) by {
      forall i, j | 0 <= i < j < |xs| ensures xs[i] != xs[j] {
        assert xs[i] == roots[i].x && xs[j] == roots[j].x;
      }
    }
    forall i | 0 <= i < m
      ensures roots[i].y == Eval([c, b, a], roots[i].x)
    {
      EvalQuadratic(a, b, c, roots[i].x);
    }
    CppSolver.SolveExact(roots, k, [c, b, a]);
  }

  /** Three points with distinct x on the integer quadratic a*x^2 + b*x + c
      lead the list: Cramer's rule in Java and Lagrange interpolation over
      those three points in C++ both give c. */
  lemma CramerMatchesLagrange(roots: seq<Point>, a: int, b: int, c: int)
    requires |roots| >= 3
    requires roots[0].x != roots[1].x && roots[0].x != roots[2].x && roots[1].x != roots[2].x
    requires forall i :: 0 <= i < 3 ==> roots[i].y == a * (roots[i].x * roots[i].x) + b * roots[i].x + c
    ensures JavaSolver.SolveSystem(roots).c == c
    ensures CppSolver.SolvePolynomial(roots, 3) == Ok(c)
  {
    JavaSolver.SystemExactOnQuadratic(roots, a, b, c);
    var xs := CppSolver.Xs(CppSolver.UsedPoints(roots, 3));
    assert xs == [roots[0].x, roots[1].x, roots[2].x];
    forall i | 0 <= i < 3
      ensures roots[i].y == Eval([c, b, a], roots[i].x)
    {
      EvalQuadratic(a, b, c, roots[i].x);
    }
    CppSolver.SolveExact(roots, 3, [c, b, a]);
  }

  /** A single point and k >= 1: Java's reduced model gives y - x^2 with
      no warning, C++ gives y, and the two differ exactly when x is not
      zero. (With k <= 0 C++ uses no point and gives 0.) */
  lemma SolversDisagreeOnOnePoint(p: Point, k: int)
    requires k >= 1
    ensures JavaSolver.SolvePolynomial([p]) == Ok(JavaSolver.Solution(p.y - p.x * p.x, []))
    ensures CppSolver.SolvePolynomial([p], k) == Ok(p.y)
    ensures JavaSolver.SolvePolynomial([p]).value.c == CppSolver.SolvePolynomial([p], k).value <==> p.x == 0
  {
    CppSolver.OnePoint([p], k);
    assert p.x * p.x == 0 <==> p.x == 0;
  }

  /** `processTestCase` in Java once the read has produced a non-empty list. */
  lemma JavaProcessOk(entries: map<int, Points.Entry>, n: int, k: int, roots: seq<Point>)
    requires Points.JavaReadPoints(entries, n) == Ok(roots) && |roots| > 0
    ensures JavaProcessTestCase(entries, n, k) == Ok(ProcessResult(n, k, roots, JavaSolver.SolvePolynomial(roots).value.c))
  {
  }

  /** `processTestCase` in C++ once the read and the solver have succeeded. */
  lemma CppProcessOk(entries: map<int, Points.Entry>, n: int, k: int, roots: seq<Point>, c: int)
    requires Points.CppReadPoints(entries) == Ok(roots)
    requires CppSolver.SolvePolynomial(roots, k) == Ok(c)
    ensures CppProcessTestCase(entries, n, k) == Ok(ProcessResult(n, k, roots, c))
  {
  }

  /** Every entry the Java loop reads decodes to the value of the quadratic
      a*x^2 + b*x + c at its index. */
  predicate EntriesOnQuadratic(entries: map<int, Points.Entry>, n: int, a: int, b: int, c: int) {
    forall i :: 1 <= i <= n && i in entries ==>
      JavaDecoder.Decode(entries[i].value, entries[i].base) == Ok(a * (i * i) + b * i + c)
  }

  /** Each point of a successful Java read of such entries lies on the
      quadratic. */
  lemma ReadOnQuadratic(entries: map<int, Points.Entry>, n: int, a: int, b: int, c: int)
    requires Points.JavaReadPoints(entries, n).Ok?
    requires EntriesOnQuadratic(entries, n, a, b, c)
    ensures var roots := Points.JavaReadPoints(entries, n).value;
      forall i :: 0 <= i < |roots| ==> roots[i].y == a * (roots[i].x * roots[i].x) + b * roots[i].x + c
  {
    Points.ScanPoints(entries, 1, n, JavaDecoder.Decode);
    var roots := Points.JavaReadPoints(entries, n).value;
    forall i | 0 <= i < |roots|
      ensures roots[i].y == a * (roots[i].x * roots[i].x) + b * roots[i].x + c
    {
      assert roots[i] in roots;
    }
  }

  /** Three present indices in 1..n give a Java read of at least three
      points. */
  lemma ReadHasThree(entries: map<int, Points.Entry>, n: int, i1: int, i2: int, i3: int)
    requires Points.JavaReadPoints(entries, n).Ok?
    requires 1 <= i1 < i2 < i3 <= n && i1 in entries && i2 in entries && i3 in entries
    ensures |Points.JavaReadPoints(entries, n).value| >= 3
  {
    Points.ScanPoints(entries, 1, n, JavaDecoder.Decode);
    assert Points.Scanned(entries, 1, n, i1) && Points.Scanned(entries, 1, n, i2) && Points.Scanned(entries, 1, n, i3);
    AtLeastThree(Points.JavaReadPoints(entries, n).value, i1, i2, i3);
  }

  /** When every present entry lies in 1..min(n, 20), at least three are
      present, Java decodes each of them to the value of a*x^2 + b*x + c at
      its index, and k >= 3, both implementations report c. */
  lemma AgreeOnQuadratic(entries: map<int, Points.Entry>, n: int, k: int, a: int, b: int, c: int,
                         i1: int, i2: int, i3: int)
    requires forall i :: i in entries && 1 <= i ==> i <= n && i <= Points.CppMaxIndex
    requires EntriesOnQuadratic(entries, n, a, b, c)
    requires 1 <= i1 < i2 < i3 && i1 in entries && i2 in entries && i3 in entries
    requires k >= 3
    ensures JavaProcessTestCase(entries, n, k).Ok? && JavaProcessTestCase(entries, n, k).value.constantC == c
    ensures CppProcessTestCase(entries, n, k).Ok? && CppProcessTestCase(entries, n, k).value.constantC == c
  {
    assert forall i :: Points.Scanned(entries, 1, n, i) ==> JavaDecoder.Decode(entries[i].value, entries[i].base).Ok?;
    Points.ReadsAgree(entries, n);
    var roots := Points.JavaReadPoints(entries, n).value;
    ReadHasThree(entries, n, i1, i2, i3);
    ReadOnQuadratic(entries, n, a, b, c);
    Points.JavaPointsInRange(entries, n);
    SolversAgreeOnQuadratic(roots, k, a, b, c);
    JavaProcessOk(entries, n, k, roots);
    CppProcessOk(entries, n, k, roots, c);
  }

  /** A list holding points at three distinct x values has at least three
      elements. */
  lemma AtLeastThree(ps: seq<Point>, i1: int, i2: int, i3: int)
    requires i1 < i2 < i3
    requires exists p :: p in ps && p.x == i1
    requires exists p :: p in ps && p.x == i2
    requires exists p :: p in ps && p.x == i3
    ensures |ps| >= 3
  {
    var p1 :| p1 in ps && p1.x == i1;
    var p2 :| p2 in ps && p2.x == i2;
    var p3 :| p3 in ps && p3.x == i3;
    var s1 := {p1, p2, p3};
    assert |s1| == 3;
    assert s1 <= set p | p in ps;
    CardinalityBound(ps);
  }

  lemma {:induction false} CardinalityBound(ps: seq<Point>)
    ensures |set p | p in ps| <= |ps|
  {
    if |ps| > 0 {
      CardinalityBound(ps[1..]);
      assert (set p | p in ps) == (set p | p in ps[1..]) + {ps[0]};
    }
  }

  /** When the only present index is i, within 1..min(n, 20), and Java
      decodes it to y, both loops read the single point (i, y). */
  lemma ReadsSingle(entries: map<int, Points.Entry>, n: int, i: int, y: int)
    requires forall j :: j in entries && 1 <= j ==> j == i
    requires 1 <= i <= n && i <= Points.CppMaxIndex && i in entries
    requires JavaDecoder.Decode(entries[i].value, entries[i].base) == Ok(y)
    ensures Points.JavaReadPoints(entries, n) == Ok([Point(i, y)])
    ensures Points.CppReadPoints(entries) == Ok([Point(i, y)])
  {
    Points.ReadsAgree(entries, n);
    Points.ScanPoints(entries, 1, n, JavaDecoder.Decode);
    var roots := Points.JavaReadPoints(entries, n).value;
    assert Points.Scanned(entries, 1, n, i);
    var p :| p in roots && p.x == i;
    assert p.y == y;
    assert forall q :: q in roots ==> i <= q.x <= i;
    Points.IncreasingLength(roots, i, i);
    assert roots == [p];
  }

  /** Java on the single point (i, y) reports y - i^2. */
  lemma JavaOnSingle(entries: map<int, Points.Entry>, n: int, k: int, i: int, y: int)
    requires Points.JavaReadPoints(entries, n) == Ok([Point(i, y)])
    ensures JavaProcessTestCase(entries, n, k) == Ok(ProcessResult(n, k, [Point(i, y)], y - i * i))
  {
    SolversDisagreeOnOnePoint(Point(i, y), 1);
    JavaProcessOk(entries, n, k, [Point(i, y)]);
  }

  /** C++ on the single point (i, y) with k >= 1 reports y. */
  lemma CppOnSingle(entries: map<int, Points.Entry>, n: int, k: int, i: int, y: int)
    requires Points.CppReadPoints(entries) == Ok([Point(i, y)]) && k >= 1
    ensures CppProcessTestCase(entries, n, k) == Ok(ProcessResult(n, k, [Point(i, y)], y))
  {
    CppSolver.OnePoint([Point(i, y)], k);
    CppProcessOk(entries, n, k, [Point(i, y)], y);
  }

  /** One present entry, at index i within 1..min(n, 20), decoding to y,
      and k >= 1: Java reports y - i^2, C++ reports y, and the two always
      differ since i >= 1. */
  lemma DisagreeOnOneEntry(entries: map<int, Points.Entry>, n: int, k: int, i: int, y: int)
    requires forall j :: j in entries && 1 <= j ==> j == i
    requires 1 <= i <= n && i <= Points.CppMaxIndex && i in entries
    requires JavaDecoder.Decode(entries[i].value, entries[i].base) == Ok(y)
    requires k >= 1
    ensures JavaProcessTestCase(entries, n, k) == Ok(ProcessResult(n, k, [Point(i, y)], y - i * i))
    ensures CppProcessTestCase(entries, n, k) == Ok(ProcessResult(n, k, [Point(i, y)], y))
    ensures y - i * i != y
  {
    ReadsSingle(entries, n, i, y);
    JavaOnSingle(entries, n, k, i, y);
    CppOnSingle(entries, n, k, i, y);
    SquarePositive(i);
  }

  lemma SquarePositive(i: int)
    requires i >= 1
    ensures i * i >= 1
  {
  }
}

=== FILE: points.dfy ===
/** Building the point list in `readTestCase`: both implementations walk the
    entry indices upward from 1, and every index that is present becomes the
    point (index, decoded value). Java stops at the declared count n; C++
    always walks 1..20 so that entries past n (index gaps) are still found.
    A decoding failure aborts the whole read.

    The JSON document is abstracted to a map from index to its entry. */
module Points {
  import opened Types
  import JavaDecoder
  import CppDecoder

  /** One entry of the input: the base and the digit string at an index. */
  datatype Entry = Entry(base: int, value: string)

  /** The x values strictly increase along the list. */
  predicate StrictlyIncreasingX(ps: seq<Point>) {
    forall a, b :: 0 <= a < b < |ps| ==> ps[a].x < ps[b].x
  }

  /** Index i is in range and present, so the scan decodes it. */
  predicate Scanned(entries: map<int, Entry>, lo: int, hi: int, i: int) {
    lo <= i <= hi && i in entries
  }

  /** Every present index in lo..i-1 decodes. */
  predicate DecodesBelow(entries: map<int, Entry>, lo: int, i: int, decode: (string, int) -> Result<int>) {
    forall j :: lo <= j < i && j in entries ==> decode(entries[j].value, entries[j].base).Ok?
  }

  /** The scan of indices lo..hi: every present index, in increasing order,
      becomes the point (index, decoded value). It fails exactly when some
      scanned entry does not decode, and then with the error of the lowest
      such index, since the loop stops at the first throw. */
  function Scan(entries: map<int, Entry>, lo: int, hi: int, decode: (string, int) -> Result<int>)
    : (r: Result<seq<Point>>)
    ensures r.Ok? <==> forall i :: Scanned(entries, lo, hi, i) ==> decode(entries[i].value, entries[i].base).Ok?
    ensures r.Err? ==> exists i :: Scanned(entries, lo, hi, i) && decode(entries[i].value, entries[i].base) == Err(r.error) &&
                                   DecodesBelow(entries, lo, i, decode)
    decreases hi - lo
  {
    if lo > hi then Ok([])
    else
      var rest := Scan(entries, lo + 1, hi, decode);
      assert forall i :: Scanned(entries, lo, hi, i) ==> i == lo || Scanned(entries, lo + 1, hi, i);
      if lo !in entries then rest
      else
        var d := decode(entries[lo].value, entries[lo].base);
        if d.Err? then Err(d.error)
        else if rest.Err? then Err(rest.error)
        else Ok([Point(lo, d.value)] + rest.value)
  }

  /** A successful scan holds exactly the present indices of lo..hi, in
      strictly increasing order, each paired with its decoded value. */
  lemma {:induction false} ScanPoints(entries: map<int, Entry>, lo: int, hi: int, decode: (string, int) -> Result<int>)
    requires Scan(entries, lo, hi, decode).Ok?
    ensures StrictlyIncreasingX(Scan(entries, lo, hi, decode).value)
    ensures forall p :: p in Scan(entries, lo, hi, decode).value ==>
              Scanned(entries, lo, hi, p.x) && decode(entries[p.x].value, entries[p.x].base) == Ok(p.y)
    ensures forall i :: Scanned(entries, lo, hi, i) ==> exists p :: p in Scan(entries, lo, hi, decode).value && p.x == i
    decreases hi - lo
  {
    if lo <= hi {
      var rest := Scan(entries, lo + 1, hi, decode);
      ScanPoints(entries, lo + 1, hi, decode);
      assert forall i :: Scanned(entries, lo, hi, i) ==> i == lo || Scanned(entries, lo + 1, hi, i);
      if lo in entries {
        var y := decode(entries[lo].value, entries[lo].base).value;
        var r := [Point(lo, y)] + rest.value;
        assert Scan(entries, lo, hi, decode).value == r;
        assert forall p :: p in r ==> p == Point(lo, y) || p in rest.value;
        assert Point(lo, y) in r;
      }
    }
  }

  /** Java's `readTestCase` loop: indices 1..n. */
  function JavaReadPoints(entries: map<int, Entry>, n: int): Result<seq<Point>> {
    Scan(entries, 1, n, JavaDecoder.Decode)
  }

  /** The fixed upper index of the C++ scan. */
  const CppMaxIndex := 20

  /** C++'s `readTestCase` loop: indices 1..20, whatever n says. */
  function CppReadPoints(entries: map<int, Entry>): Result<seq<Point>> {
    Scan(entries, 1, CppMaxIndex, CppDecoder.Decode)
  }

  /** Java's points have pairwise distinct x values in [1, n]. */
  lemma JavaPointsInRange(entries: map<int, Entry>, n: int)
    requires JavaReadPoints(entries, n).Ok?
    ensures StrictlyIncreasingX(JavaReadPoints(entries, n).value)
    ensures forall p :: p in JavaReadPoints(entries, n).value ==> 1 <= p.x <= n
    ensures |JavaReadPoints(entries, n).value| <= if n < 0 then 0 else n
  {
    ScanPoints(entries, 1, n, JavaDecoder.Decode);
    IncreasingLength(JavaReadPoints(entries, n).value, 1, n);
  }

  /** C++'s points have pairwise distinct x values in [1, 20]. */
  lemma CppPointsInRange(entries: map<int, Entry>)
    requires CppReadPoints(entries).Ok?
    ensures StrictlyIncreasingX(CppReadPoints(entries).value)
    ensures forall p :: p in CppReadPoints(entries).value ==> 1 <= p.x <= CppMaxIndex
    ensures |CppReadPoints(entries).value| <= CppMaxIndex
  {
    ScanPoints(entries, 1, CppMaxIndex, CppDecoder.Decode);
    IncreasingLength(CppReadPoints(entries).value, 1, CppMaxIndex);
  }

  /** A strictly increasing run of integers inside [lo, hi] has at most
      hi - lo + 1 members. */
  lemma {:induction false} IncreasingLength(ps: seq<Point>, lo: int, hi: int)
    requires StrictlyIncreasingX(ps)
    requires forall p :: p in ps ==> lo <= p.x <= hi
    ensures |ps| <= if hi < lo then 0 else hi - lo + 1
    decreases |ps|
  {
    if |ps| > 0 {
      assert ps[0] in ps;
      var tail := ps[1..];
      forall p | p in tail
        ensures lo + 1 <= p.x <= hi
      {
        var k :| 0 <= k < |tail| && tail[k] == p;
        assert ps[k + 1] == p;
      }
      IncreasingLength(tail, lo + 1, hi);
    }
  }

  /** A present index past the declared count n (but within 20) becomes a
      C++ point and never a Java point. */
  lemma CppSeesPastN(entries: map<int, Entry>, n: int, i: int)
    requires 1 <= n < i <= CppMaxIndex && i in entries
    requires CppReadPoints(entries).Ok? && JavaReadPoints(entries, n).Ok?
    ensures exists p :: p in CppReadPoints(entries).value && p.x == i
    ensures forall p :: p in JavaReadPoints(entries, n).value ==> p.x != i
  {
    assert Scanned(entries, 1, CppMaxIndex, i);
    ScanPoints(entries, 1, CppMaxIndex, CppDecoder.Decode);
    ScanPoints(entries, 1, n, JavaDecoder.Decode);
  }
  /** Two scans build the same list when every present index either range
      reaches lies inside both, and the two decoders agree on those entries. */
  lemma {:induction false} ScanAgree(entries: map<int, Entry>, lo: int, hi1: int, hi2: int,
                                     d1: (string, int) -> Result<int>, d2: (string, int) -> Result<int>)
    requires forall i :: Scanned(entries, lo, hi1, i) || Scanned(entries, lo, hi2, i) ==>
               i <= hi1 && i <= hi2 && d1(entries[i].value, entries[i].base) == d2(entries[i].value, entries[i].base)
    ensures Scan(entries, lo, hi1, d1) == Scan(entries, lo, hi2, d2)
    decreases (if hi1 < hi2 then hi2 else hi1) - lo
  {
    if lo <= hi1 || lo <= hi2 {
      ScanAgree(entries, lo + 1, hi1, hi2, d1, d2);
    }
  }

  /** When every present index of 1..max(n, 20) lies in 1..min(n, 20) and
      Java decodes each of them, the Java and C++ loops build the same,
      successful point list. */
  lemma ReadsAgree(entries: map<int, Entry>, n: int)
    requires forall i :: i in entries && 1 <= i && (i <= n || i <= CppMaxIndex) ==>
               i <= n && i <= CppMaxIndex && JavaDecoder.Decode(entries[i].value, entries[i].base).Ok?
    ensures JavaReadPoints(entries, n).Ok?
    ensures JavaReadPoints(entries, n) == CppReadPoints(entries)
  {
    DecodersAgreeInRange(entries, n);
    ScanAgree(entries, 1, n, CppMaxIndex, JavaDecoder.Decode, CppDecoder.Decode);
    ScanSucceeds(entries, 1, n, JavaDecoder.Decode);
  }

  /** A scan whose present entries all decode succeeds. */
  lemma ScanSucceeds(entries: map<int, Entry>, lo: int, hi: int, decode: (string, int) -> Result<int>)
    requires forall i :: lo <= i <= hi && i in entries ==> decode(entries[i].value, entries[i].base).Ok?
    ensures Scan(entries, lo, hi, decode).Ok?
  {
  }

  /** On the entries either loop reads, the two decoders agree. */
  lemma DecodersAgreeInRange(entries: map<int, Entry>, n: int)
    requires forall i :: i in entries && 1 <= i && (i <= n || i <= CppMaxIndex) ==>
               i <= n && i <= CppMaxIndex && JavaDecoder.Decode(entries[i].value, entries[i].base).Ok?
    ensures forall i :: Scanned(entries, 1, n, i) || Scanned(entries, 1, CppMaxIndex, i) ==>
              i <= n && i <= CppMaxIndex &&
              JavaDecoder.Decode(entries[i].value, entries[i].base) == CppDecoder.Decode(entries[i].value, entries[i].base)
  {
    forall i | Scanned(entries, 1, n, i) || Scanned(entries, 1, CppMaxIndex, i)
      ensures JavaDecoder.Decode(entries[i].value, entries[i].base) == CppDecoder.Decode(entries[i].value, entries[i].base)
    {
      JavaDecoder.AgreesWithCpp(entries[i].value, entries[i].base);
    }
  }
}

=== FILE: polynomial.dfy ===
/** Integer polynomials as coefficient sequences, constant term first: `p`
    stands for p[0] + p[1]*t + p[2]*t^2 + ... .

    The main fact here is the root-counting theorem: a polynomial with at
    most n coefficients that vanishes at n distinct points vanishes
    everywhere. It is what makes interpolation exact. */
module Polynomial {

  function Eval(p: seq<int>, t: int): int
    decreases |p|
  {
    if |p| == 0 then 0 else p[0] + t * Eval(p[1..], t)
  }

  /** Coefficient-wise sum. */
  function Add(p: seq<int>, q: seq<int>): (r: seq<int>)
    ensures |r| == if |p| < |q| then |q| else |p|
    decreases |p|
  {
    if |p| == 0 then q
    else if |q| == 0 then p
    else [p[0] + q[0]] + Add(p[1..], q[1..])
  }

  /** Every coefficient multiplied by c. */
  function Scale(p: seq<int>, c: int): (r: seq<int>)
    ensures |r| == |p|
    decreases |p|
  {
    if |p| == 0 then [] else [c * p[0]] + Scale(p[1..], c)
  }

  /** Coefficient-wise difference. */
  function Sub(p: seq<int>, q: seq<int>): (r: seq<int>)
    ensures |r| == if |p| < |q| then |q| else |p|
  {
    Add(p, Scale(q, -1))
  }

  /** The coefficients of (t - a) * p(t). */
  function MulLinear(p: seq<int>, a: int): (r: seq<int>)
    ensures |r| == |p| + 1
  {
    Add([0] + p, Scale(p, -a))
  }

  /** The quotient of p(t) - p(a) by (t - a) (synthetic division). */
  function Quot(p: seq<int>, a: int): (q: seq<int>)
    ensures |q| == if |p| == 0 then 0 else |p| - 1
    decreases |p|
  {
    if |p| == 0 then [] else Add(p[1..], Scale(Quot(p[1..], a), a))
  }

  lemma {:induction false} EvalAdd(p: seq<int>, q: seq<int>, t: int)
    ensures Eval(Add(p, q), t) == Eval(p, t) + Eval(q, t)
    decreases |p|
  {
    if |p| > 0 && |q| > 0 {
      var r := Add(p, q);
      assert r[0] == p[0] + q[0] && r[1..] == Add(p[1..], q[1..]);
      EvalAdd(p[1..], q[1..], t);
      var ep, eq := Eval(p[1..], t), Eval(q[1..], t);
      assert t * (ep + eq) == t * ep + t * eq;
    }
  }

  lemma {:induction false} EvalScale(p: seq<int>, c: int, t: int)
    ensures Eval(Scale(p, c), t) == c * Eval(p, t)
    decreases |p|
  {
    if |p| > 0 {
      var r := Scale(p, c);
      assert r[0] == c * p[0] && r[1..] == Scale(p[1..], c);
      EvalScale(p[1..], c, t);
      var e := Eval(p[1..], t);
      assert t * (c * e) == c * (t * e);
      assert c * p[0] + c * (t * e) == c * (p[0] + t * e);
    }
  }

  lemma EvalSub(p: seq<int>, q: seq<int>, t: int)
    ensures Eval(Sub(p, q), t) == Eval(p, t) - Eval(q, t)
  {
    EvalAdd(p, Scale(q, -1), t);
    EvalScale(q, -1, t);
  }

  lemma EvalMulLinear(p: seq<int>, a: int, t: int)
    ensures Eval(MulLinear(p, a), t) == (t - a) * Eval(p, t)
  {
    var shifted := [0] + p;
    assert shifted[1..] == p;
    assert Eval(shifted, t) == t * Eval(p, t);
    EvalAdd(shifted, Scale(p, -a), t);
    EvalScale(p, -a, t);
    var e := Eval(p, t);
    assert t * e + (-a) * e == (t - a) * e;
  }

  /** Synthetic division: p(t) = (t - a) * Quot(p, a)(t) + p(a). */
  lemma {:induction false} EvalQuot(p: seq<int>, a: int, t: int)
    ensures Eval(p, t) == (t - a) * Eval(Quot(p, a), t) + Eval(p, a)
    decreases |p|
  {
    if |p| > 0 {
      EvalQuot(p[1..], a, t);
      EvalQuotStep(p, a, t);
    }
  }

  /** One step of synthetic division: the identity for p follows from the
      identity for its tail. */
  lemma EvalQuotStep(p: seq<int>, a: int, t: int)
    requires |p| > 0
    ensures Eval(p[1..], t) == (t - a) * Eval(Quot(p[1..], a), t) + Eval(p[1..], a) ==>
            Eval(p, t) == (t - a) * Eval(Quot(p, a), t) + Eval(p, a)
  {
    var tail := p[1..];
    EvalQuotCons(p, a, t);
    EvalCons(p, t);
    EvalCons(p, a);
    QuotStep(p[0], t, a, Eval(tail, t), Eval(tail, a), Eval(Quot(tail, a), t), Eval(Quot(p, a), t), Eval(p, t), Eval(p, a));
  }

  lemma EvalCons(p: seq<int>, t: int)
    requires |p| > 0
    ensures Eval(p, t) == p[0] + t * Eval(p[1..], t)
  {
  }

  /** The quotient of a non-constant p evaluates to the tail's value plus a
      times the tail's quotient. */
  lemma EvalQuotCons(p: seq<int>, a: int, t: int)
    requires |p| > 0
    ensures Eval(Quot(p, a), t) == Eval(p[1..], t) + a * Eval(Quot(p[1..], a), t)
  {
    var qt := Quot(p[1..], a);
    EvalAdd(p[1..], Scale(qt, a), t);
    EvalScale(qt, a, t);
  }

  /** The algebra of one synthetic-division step. */
  lemma QuotStep(c: int, t: int, a: int, et: int, ea: int, eq: int, q: int, pt: int, pa: int)
    ensures et == (t - a) * eq + ea && q == et + a * eq && pt == c + t * et && pa == c + a * ea ==>
            pt == (t - a) * q + pa
  {
    if et == (t - a) * eq + ea && q == et + a * eq && pt == c + t * et && pa == c + a * ea {
      calc {
        (t - a) * q + pa;
        (t - a) * (et + a * eq) + (c + a * ea);
        (t - a) * et + a * ((t - a) * eq) + c + a * ea;
        (t - a) * et + a * ((t - a) * eq + ea) + c;
        (t - a) * et + a * et + c;
        c + t * et;
      }
    }
  }

  /** The x values are pairwise distinct. */
  predicate Distinct(xs: seq<int>) {
    forall i, j :: 0 <= i < j < |xs| ==> xs[i] != xs[j]
  }

  /** Root counting: a polynomial with at most |xs| coefficients that is
      zero at every one of the distinct points xs is zero everywhere. */
  lemma {:induction false} VanishingIsZero(p: seq<int>, xs: seq<int>, t: int)
    requires |p| <= |xs|
    requires Distinct(xs)
    requires forall i :: 0 <= i < |xs| ==> Eval(p, xs[i]) == 0
    ensures Eval(p, t) == 0
    decreases |xs|
  {
    if |p| > 0 {
      var a := xs[0];
      var q := Quot(p, a);
      var rest := xs[1..];
      forall i | 0 <= i < |rest|
        ensures Eval(q, rest[i]) == 0
      {
        var b := rest[i];
        assert b == xs[i + 1] && b != a;
        EvalQuot(p, a, b);
        NonzeroFactor(b - a, Eval(q, b), Eval(p, b), Eval(p, a));
      }
      assert Distinct(rest) by {
        forall i, j | 0 <= i < j < |rest| ensures rest[i] != rest[j] {
          assert rest[i] == xs[i + 1] && rest[j] == xs[j + 1];
        }
      }
      VanishingIsZero(q, rest, t);
      EvalQuot(p, a, t);
    }
  }

  lemma NonzeroFactor(d: int, e: int, pb: int, pa: int)
    requires d != 0 && pb == d * e + pa && pb == 0 && pa == 0
    ensures e == 0
  {
  }

  /** The constant coefficient (zero for the empty polynomial) is the
      value at zero. */
  function ConstantTerm(p: seq<int>): (c: int)
    ensures c == Eval(p, 0)
  {
    if |p| == 0 then 0 else p[0]
  }

}

=== FILE: types.dfy ===
/** Values shared by both implementations: sample points, the failures the
    decoders and solvers raise, and the failure-carrying wrappers. */
module Types {

  /** A sample point (x, y): x is the entry's index, y its decoded value. */
  datatype Point = Point(x: int, y: int)

  /** The exceptions the two implementations throw, one variant per cause. */
  datatype Error =
    | UnsupportedBase(base: int)          // Java: base outside the whitelist
    | NumberFormat(value: string)         // Java: BigInteger rejects the digit string
    | InvalidCharacter(c: char)           // C++: charToDigit meets a non-alphanumeric
    | DigitOutOfRange(digit: nat, base: int) // C++: digit value >= base
    | NoRoots                             // both: empty point list
    | DuplicateX                          // C++: two used points share x (division by zero)

  datatype Option<+T> = None | Some(value: T)

  datatype Result<+T> = Ok(value: T) | Err(error: Error) {
    predicate IsFailure() {
      Err?
    }

    function PropagateFailure<U>(): Result<U>
      requires Err?
    {
      Err(error)
    }

    function Extract(): T
      requires Ok?
    {
      value
    }
  }
}
